=== FILE: README.md ===
# Totem "Amor por Fotos": a Dafny model of the print server core

This project models the server side of a photo kiosk. Customers upload
photos from a phone into a short-lived session, pick a print format for each
photo (10x15 cm or 15x21 cm), and place an order. The server then prepares
each photo for a Fujifilm ASK-400 dye-sublimation printer and feeds the
prints through a single-printer queue. At the counter it keeps per-order
metadata and prints a receipt.

The model covers:

- **Geometry** (`server/ask400Processor.ts`):
  - the format table and the centred crop to the target aspect ratio;
  - the processing pipeline's error paths and the validation of processed images;
  - the print-info summary.
- **PrintQueue** (`server/printQueue.ts`): the FIFO print queue as a state machine.
  - Its steps are: add, start, settle, watchdog, cancel, pause, resume, clear.
  - It keeps an event log in place of the emitter.
- **PrintDriver** (`server/ask400PrintDriver.ts`):
  - the default settings and the settings validator;
  - the paper size;
  - the `lp` command lines and the per-platform dispatch.
- **PrinterManager** (`server/printerManager.ts`):
  - the `lpstat` parser and the Windows printer-list normalisation;
  - `testPrinter`, the `lp` command and `printFile`.
- **OrderOrganizer** (`server/orderOrganizer.ts`):
  - the order folder layout and initial metadata;
  - counter recomputation, photo append, mark-printed;
  - the report's symbol and pending figure.
- **Store** (`drizzle/schema.ts`, `server/db.ts`): the three tables as maps, with the row operations the queries perform.
- **Receipt** (`server/receiptGenerator.ts`):
  - per-format counts, unit prices and the total, in integer centavos;
  - the line items drawn and the money text.
- **Upload** (`server/uploadHandler.ts`):
  - the admission checks and the MIME filter;
  - the extension and storage key;
  - the photo rows written.
- **Routers** (`server/routers.ts`): session creation, order creation and photo selection.
- **Results**, **Formats**, **Platforms**, **Text**: shared option/result types and truthiness, the two format names, the operating systems `os.platform()` tells apart, and JavaScript string behaviour.
  - The string behaviour covered is decimal rendering, `split`/`pop`, `startsWith`, and word splitting.

Clock readings, nanoid values, file existence, command outcomes, storage
answers and image metadata are all parameters of the model.

Points of the code's behaviour that a reader might expect to be otherwise:

- **Crop offsets** are rounded with `Math.round`, so an odd remainder gives the extra pixel to the left or top margin.
- **A square source** is trimmed left and right for both formats, because both formats are portrait.
- **The watchdog** marks a stuck job failed, but the runner does not move on. The next job starts only when the printer call settles.
- **`createOrder`** accepts an empty photo list and does not check that the session exists or is active.

## Model

| member | source | states |
|---|---|---|
| Formats.Parse | server/ask400PrintDriver.ts:330-332 | Exactly the strings "10x15" and "15x21" are formats, and each parses back from its own name. |
| Geometry.SpecIsPhysicalSize | server/ask400Processor.ts:21-36 | Both formats are at 300 dpi, each pixel size is the paper size in cm at 300 dpi rounded to the nearest pixel, and both are portrait. |
| Geometry.RoundDiv | server/ask400Processor.ts:58-63 | The result is the nearest integer to p/q, with an exact half rounded up, as `Math.round` does for these arguments. |
| Geometry.CalculateCrop | server/ask400Processor.ts:42-70 | The crop lies inside the source. A source strictly wider than the target (w·th > tw·h) keeps its full height, and the trimmed width is within half a pixel of the target ratio. Otherwise the source keeps its full width, and the trimmed height is within half a pixel of the ratio. Both offsets are centred, the odd pixel going to the left or top margin. |
| Geometry.WideCropFits | server/ask400Processor.ts:55-58 | For a source strictly wider than the target, the trimmed width `Math.round(h·tw/th)` is between 0 and the source width, and within half a pixel of the exact target ratio. |
| Geometry.TallCropFits | server/ask400Processor.ts:59-63 | For a source no wider than the target, the trimmed height `Math.round(w·th/tw)` is between 0 and the source height, and within half a pixel of the exact target ratio. |
| Geometry.ExactAspectNotCropped | server/ask400Processor.ts:55-67 | A source with exactly the target aspect ratio is returned whole as (0, 0, w, h). |
| Geometry.SquareTrimmedLeftRight | server/ask400Processor.ts:55-59 | A square source is wider than either portrait target, so it keeps its full height and is trimmed left and right. |
| Geometry.CropNonEmptyForSpecs | server/ask400Processor.ts:55-67 | For either format, any non-empty source gives a crop at least one pixel wide and one pixel high. |
| Geometry.ProcessForASK400 | server/ask400Processor.ts:79-132 | A metadata failure is rethrown with the "Falha ao processar imagem para ASK-400" prefix. A zero or missing dimension fails with the invalid-image message. A success reports exactly the format's width, height and dpi, for the requested format. Without an axis-swapping EXIF orientation, the extracted region is the centred crop of the stored size. |
| Geometry.ProcessOriented | server/ask400Processor.ts:101-107 | Corrected pipeline: any source with non-zero dimensions succeeds, and its crop is centred inside the auto-rotated picture. |
| Geometry.ProcessAgreesWithoutRotation | server/ask400Processor.ts:90-107 | When no orientation swaps the axes, the as-written and corrected pipelines give identical results. |
| Geometry.RotatedPhotoCropOffCentre | server/ask400Processor.ts:90-107 | Counterexample: a 4000x3000 photo with orientation 6 is cut flush against the right edge of the rotated picture, not centred. |
| Geometry.RotatedPhotoCropOutOfBounds | server/ask400Processor.ts:90-107 | Counterexample: a 3000x4000 photo with orientation 6 gets an extraction area larger than the rotated picture. The as-written pipeline fails with "bad extract area"; the corrected one succeeds. |
| Geometry.ValidateForASK400 | server/ask400Processor.ts:160-194 | The image is valid iff its reported size is exactly the format's size and its encoding is JPEG. A size mismatch is reported first, whatever the encoding. A metadata read failure gives the read-error message. |
| Geometry.ProcessedImagePassesValidation | server/ask400Processor.ts:121-127 | Whatever the corrected pipeline produces passes the validation for its format. |
| Geometry.GetPrintInfo | server/ask400Processor.ts:199-215 | The centimetre size reads as the format's name ("10x15 cm", "15x21 cm"), the pixels text renders the format's size, and the dpi is the format's. The driver's paper is the paper size plus " inches", in portrait at best quality, 100% scaling, enhancement off. |
| PrintQueue.AddJob | server/printQueue.ts:39-41 | The job is appended at the tail with the earlier pending order unchanged, and a JobAdded event is logged. If the queue is idle, the head of the extended list (the new job when none was waiting) starts at once, unchanged but for status printing and the start time. |
| PrintQueue.ProcessNext | server/printQueue.ts:53-72 | No-op when processing or when nothing is pending. Otherwise the head leaves the queue and becomes current, unchanged but for status printing and the start time `now`; the flag is raised, one print call is outstanding, and a JobStarted event for it is logged. |
| PrintQueue.Settle | server/printQueue.ts:79-89 | Only the status, the error and the completion time change; id, order number, format, printer, copies and both earlier timestamps are kept. Success marks the job completed and keeps its earlier error. Failure marks it failed with the error text. Either way the completion time is set. |
| PrintQueue.Finish | server/printQueue.ts:91-97 | Afterwards the flag is lowered, no job is current, the pending jobs are unchanged and one fewer call is outstanding. The settled event names the job that was current. |
| PrintQueue.WatchdogFires | server/printQueue.ts:105-116 | Only a current job still printing is marked failed with the watchdog message, after a WatchdogTimeout event. The flag, the pending jobs and the current slot are untouched. |
| Results.FindIndex | server/printQueue.ts:199 | The result is the first position whose element satisfies the predicate, and it is absent only when no element does. The queue finds a pending job by id with it, and the order organiser finds a photo by id. |
| PrintQueue.CancelJob | server/printQueue.ts:198-208 | Returns true iff a pending job has the id. In that case exactly the first such job is removed, and the others keep their order. On false the queue is unchanged. |
| PrintQueue.Pause | server/printQueue.ts:179-183 | Raises the flag and logs Paused, changing nothing else. |
| PrintQueue.Resume | server/printQueue.ts:188-193 | As written: Resumed is logged, the flag is cleared and a start is attempted even while a print is outstanding. With nothing pending, only the flag and the log change. With jobs pending, the head becomes current and printing, replacing any current job; JobStarted follows Resumed in the log, and one more call becomes outstanding. |
| PrintQueue.ResumeFixed | server/printQueue.ts:188-193 | Corrected: while a call is outstanding only Resumed is logged; otherwise it behaves as `resume`. |
| PrintQueue.Clear | server/printQueue.ts:171-174 | Empties the pending list and leaves the current job, the flag and the log as they were. |
| PrintQueue.GetStatus | server/printQueue.ts:154-166 | queueLength is the pending count, and jobs lists the pending jobs in order followed by the current job, if any. |
| PrintQueue.RunKeepsValid | server/printQueue.ts:53-97 | Any run with the corrected `resume` keeps the invariant that ties the flag, the current job and the outstanding calls together. |
| PrintQueue.AtMostOnePrinting | server/printQueue.ts:58-68 | From the initial queue with the corrected `resume`, at most one call is outstanding and at most one listed job is printing. |
| PrintQueue.DrainedMeansIdle | server/printQueue.ts:212-222 | When the `waitForCompletion` condition holds, nothing is current, no call is outstanding, and the status lists no jobs. |
| PrintQueue.WaitingWhileBusy | server/printQueue.ts:212-222 | A pending or current job keeps `waitForCompletion` waiting. |
| PrintQueue.CancelMissesCurrent | server/printQueue.ts:198-208 | The current job cannot be cancelled, because it is no longer in the queue. |
| PrintQueue.AbsentJobNeverStarts | server/printQueue.ts:58-72 | A job that is neither pending nor current, and is never re-added, is never started: no JobStarted event for it is ever logged. |
| PrintQueue.CancelledJobNeverStarts | server/printQueue.ts:198-208 | After a successful cancel, with unique ids, the cancelled job never starts printing. |
| PrintQueue.WatchdogDoesNotAdvance | server/printQueue.ts:105-116 | After the watchdog fires, the runner still refuses to start the next job. |
| PrintQueue.WatchdogThenSuccess | server/printQueue.ts:79-83 | A job failed by the watchdog that then prints ends completed but keeps the watchdog error. |
| PrintQueue.PauseDuringPrintIsUndone | server/printQueue.ts:91-97 | A pause made during a print is undone when the print settles, and the next job starts. |
| PrintQueue.FailThenSucceedScenario | server/printQueue.ts:39-97 | Two jobs, the first failing: A starts first and ends failed with its error recorded. Only then does B start; it completes and the queue drains. |
| PrintQueue.ResumeDuringPrintStartsSecondJob | server/printQueue.ts:188-193 | Counterexample: resuming during A's print starts B as well. When A's call settles, B is reported as the completed job, and B's own settlement finds no current job. |
| PrintQueue.ResumeFixedDuringPrintKeepsOneJob | server/printQueue.ts:188-193 | With the corrected resume the same scenario keeps one call outstanding and B waiting. |
| PrintDriver.PaperSize | server/ask400PrintDriver.ts:48-50 | "4x6" exactly for 10x15 and "6x8" exactly for 15x21. |
| PrintDriver.GetConfig | server/ask400PrintDriver.ts:26-43 | The default settings of each format are one copy at Best on the ASK-400, and they pass validation. |
| PrintDriver.FailedChecks | server/ask400PrintDriver.ts:324-340 | Each check fails exactly under its own condition: the printer name is missing or empty; the format is missing or unknown; scaling is not 100, including when absent; autoEnhance is not false, including when absent. Failures appear in check order, at most four. |
| PrintDriver.ValidateSettings | server/ask400PrintDriver.ts:321-346 | Valid iff the error list is empty iff all four conditions hold. The errors are the failed checks' messages in order. |
| PrintDriver.LinuxIsMacPlusOneSided | server/ask400PrintDriver.ts:174 | The Linux command is the macOS command with `-o sides=one-sided` inserted before the copy count. |
| PrintDriver.MacCommandWords | server/ask400PrintDriver.ts:203 | With no space in the printer name or the path, the macOS command splits into `lp -d <printer> -o media=<paper> -n <copies> "<path>"`. |
| PrintDriver.SubmittedCommand | server/ask400PrintDriver.ts:251-258 | A shell command is submitted exactly on Linux and macOS. |
| PrintDriver.PrintToASK400 | server/ask400PrintDriver.ts:224-272 | Success iff the file exists, the platform is supported and the submission succeeds. A missing file, an unsupported platform and a submission error each give their own message. |
| PrintDriver.RequestSettings | server/ask400PrintDriver.ts:240-247 | The settings built for a request carry the requested format, printer and copies at Best, and they validate whenever a printer is named. |
| PrintDriver.PrintInfoAgreesWithDriver | server/ask400Processor.ts:204-208 | The paper reported by the print info is the paper the driver loads. |
| PrinterManager.MatchPrinterName | server/printerManager.ts:77 | A match exists iff "printer " followed by a name character occurs anywhere in the line. The name is the longest run of `[\w-]` after the leftmost such occurrence. |
| PrinterManager.ParseLine | server/printerManager.ts:76-84 | Only a line starting with "printer" and matching the pattern gives an entry. The entry is named by the match, is default iff the line contains '*', and has status "Ready". |
| PrinterManager.EntriesAppend | server/printerManager.ts:75-86 | The entries of concatenated line lists are the entries of each list in order, so line order is kept. |
| PrinterManager.ParseLpstat | server/printerManager.ts:104-115 | The Linux and macOS parsers are this one function: at most one entry per line, each "Ready" with a non-empty name. |
| PrinterManager.LpstatSearchUnanchored | server/printerManager.ts:77 | A line starting "printers printer X" yields X: the pattern search is not anchored. |
| PrinterManager.LpstatDefaultLineSkipped | server/printerManager.ts:76 | The "system default destination" line gives no entry. |
| PrinterManager.NormaliseWindows | server/printerManager.ts:52-59 | A single object becomes a one-element list. Each entry keeps its name, is default iff Default is exactly true, is "Ready", and has its model or "Unknown". |
| PrinterManager.SingleListingIsOneElementList | server/printerManager.ts:52 | A bare printer object is normalised exactly as the one-element array it is wrapped into, giving one printer of the same name. |
| PrinterManager.TestPrinterOnListing | server/printerManager.ts:52-59 | On Windows the test holds iff the PowerShell listing has an entry of that name. |
| PrinterManager.TestPrinterOnLpstat | server/printerManager.ts:69-86 | On Linux and macOS the test holds iff some line of the `lpstat` output parses to a printer of that name. |
| PrinterManager.TestPrinterOnPlatform | server/printerManager.ts:22-39 | Testing a printer on the listing `getPrinters` returns: on Linux and macOS it is found iff a line of the `lpstat` output names it; on Windows iff the listing has an entry of that name; never when the command failed or the platform is not supported. |
| PrinterManager.TestPrinter | server/printerManager.ts:269-272 | True iff some listed printer's name equals the argument. |
| PrinterManager.TestPrinterOnLines | server/printerManager.ts:75-86 | On `lpstat` output, the test holds iff some line parses to a printer of that name. |
| PrinterManager.UnixPrintCommandIsWords | server/printerManager.ts:191 | The print command is exactly the six words `lp`, `-d`, the printer, `-n`, the copies and the quoted path, joined by single spaces. |
| PrinterManager.UnixPrintCommandWords | server/printerManager.ts:191 | With no space in the name or the path, the print command splits into `lp -d <printer> -n <copies> "<path>"`. |
| PrinterManager.PrintFile | server/printerManager.ts:127-149 | Success iff the file exists, the platform is supported and the submission succeeds. Each failure gives its own message, and a success says "Impressão iniciada em " followed by the printer name. |
| OrderOrganizer.DatePartOfTimestamp | server/orderOrganizer.ts:41 | The date part of `<date>T<time>` is `<date>`. |
| OrderOrganizer.OrderPathComponents | server/orderOrganizer.ts:42 | The order folder's path components are the base's, then the day, then `Pedido_<n>`. |
| OrderOrganizer.SubFoldersOfOrder | server/orderOrganizer.ts:45-47 | The three sub-folders are 10x15, 15x21 and originais, each directly inside the order folder. |
| OrderOrganizer.NewMetadata | server/orderOrganizer.ts:50-59 | New metadata is pending, with no photos and all counters at 0. It is consistent, with nothing pending. |
| OrderOrganizer.CountPrinted | server/orderOrganizer.ts:116-118 | The printed counter is 0 iff no photo is printed and equals the number of photos iff all are. |
| OrderOrganizer.CountFailed | server/orderOrganizer.ts:119-121 | The failed counter is 0 iff no photo has a truthy error and equals the number of photos iff all have one. |
| OrderOrganizer.UpdateMetadata | server/orderOrganizer.ts:112-121 | Present fields override the current ones. The result is always consistent: total is the number of photos, printed the count of printed photos, failed the count with a truthy error. |
| OrderOrganizer.UpdateIgnoresCounters | server/orderOrganizer.ts:115-121 | Counter values passed in an update have no effect. |
| OrderOrganizer.UpdateIdempotent | server/orderOrganizer.ts:112-121 | Applying an update twice equals applying it once. |
| OrderOrganizer.AddPhoto | server/orderOrganizer.ts:150-152 | The photo is appended at the end and the total becomes the old list length plus one. The order number, session, creation time, status and notes are kept, because only `photos` is sent to the update. |
| OrderOrganizer.AddPhotoCounters | server/orderOrganizer.ts:150-152 | On consistent metadata, each counter moves by exactly the new photo's share. |
| OrderOrganizer.MarkAsWritten | server/orderOrganizer.ts:176-181 | printed becomes the outcome. Success sets printedAt and keeps any earlier error. Failure records the error only if one is given. |
| OrderOrganizer.MarkPhotoPrinted | server/orderOrganizer.ts:162-189 | An unknown id changes no photo. Otherwise exactly the first matching photo is changed, and the counters are recomputed. The order number, session, creation time, status and notes are kept. |
| OrderOrganizer.MarkCorrected | server/orderOrganizer.ts:176-181 | Corrected: success also clears an earlier error, so no photo is both printed and errored. |
| OrderOrganizer.MarkPhotoPrintedFixed | server/orderOrganizer.ts:162-189 | As `markPhotoPrinted`, with the corrected change applied to the first matching photo. The order number, session, creation time, status and notes are kept. |
| OrderOrganizer.ReportSymbol | server/orderOrganizer.ts:314 | ✓ iff printed, ✗ iff not printed and errored, ○ iff neither. |
| OrderOrganizer.CountWaiting | server/orderOrganizer.ts:314 | The number of ○ lines in the report is 0 iff no photo shows ○ and the number of photos iff all do. |
| OrderOrganizer.PendingIsWaitingLessDoubleCounted | server/orderOrganizer.ts:308 | On consistent metadata, pending equals the number of ○ photos minus the photos that are both printed and errored. |
| OrderOrganizer.RetriedPhotoCountsTwice | server/orderOrganizer.ts:176-181 | Counterexample: a failure then a successful retry leaves the photo counted as printed and failed, with pending -1. |
| OrderOrganizer.MarkFixedKeepsNoDoubleCount | server/orderOrganizer.ts:176-181 | The corrected marking never makes a photo both printed and errored. |
| OrderOrganizer.PendingExactWithoutDoubleCount | server/orderOrganizer.ts:308 | Without double-counted photos, pending is exactly the number of ○ photos, so it is never negative. |
| OrderOrganizer.RetriedPhotoCountsOnceFixed | server/orderOrganizer.ts:176-181 | With the corrected marking, the retry scenario ends with one printed photo, none failed, none pending. |
| Store.InsertSession | server/db.ts:93-108 | The insert succeeds iff the session id is new. The session is then filed under its id and the keying invariant is kept. |
| Store.SetSessionStatus | server/db.ts:120-128 | Only the named session's status changes, and an unknown id changes nothing. |
| Store.InsertPhoto | server/db.ts:130-146 | The row gets the next auto-increment id and that id is then used up. |
| Store.InsertOrder | server/db.ts:171-186 | The insert succeeds iff the order number is new, and the row is filed under it. |
| Receipt.CountsWithinEntries | server/receiptGenerator.ts:31-32 | The two counts add up to at most the number of entries. They add up to exactly that number iff every entry's format is one of the two names. |
| Receipt.GenerateReceipt | server/receiptGenerator.ts:21-42 | An unknown order gives "Pedido <n> não encontrado". Otherwise the counts are those of exact format strings over the metadata photos, with missing metadata or photos counting 0. photoCount is copied from the order row, the prices are 75 and 220 centavos, and the total is 75·n10x15 + 220·n15x21. |
| Receipt.NoEntriesPricedZero | server/receiptGenerator.ts:31-32 | An order without metadata photos is found and priced at zero. |
| Receipt.MoneyRoundTrip | server/receiptGenerator.ts:118-125 | The two-decimal money text reads back as the same amount in centavos. |
| Receipt.LineItems | server/receiptGenerator.ts:115-153 | A format's line item is drawn iff its count is positive, and each subtotal is count times unit price. |
| Receipt.LineItemsAddUpToTotal | server/receiptGenerator.ts:115-170 | The subtotals of the drawn line items add up to the printed total. |
| Upload.Admit | server/uploadHandler.ts:21-46 | Admitted iff the session id is given and non-empty, the session exists and is active, now ≤ expiresAt, and at least one file came. The checks run in that order and the first that fails decides the answer: 400 "Session ID is required", 404 "Session not found" (exactly the unknown-session case), then 400 "Session is not active", "Session has expired" and "No files uploaded". Every other rejection is a 400. |
| Upload.Extension | server/uploadHandler.ts:58 | The extension is never empty and contains no dot. |
| Upload.CountSupported | server/uploadHandler.ts:52-56 | No file is stored iff no file has a supported MIME type, and every file is stored iff all have one. |
| Upload.ExtensionAfterDot | server/uploadHandler.ts:58 | The extension of `stem.ext` is `ext`. |
| Upload.ExtensionEdgeCases | server/uploadHandler.ts:58 | A name without a dot is its own extension, and a name ending in a dot gets "jpg". |
| Upload.FileKeyKeepsExtension | server/uploadHandler.ts:59 | The storage key ends in the component `<id>.<ext>` and keeps the original file's extension. |
| Upload.NewPhotoRow | server/uploadHandler.ts:65-73 | The photo row is unselected, has no format, and records the key, the original name, the MIME type and the URL. |
| Upload.StoreFilesAddsRows | server/uploadHandler.ts:50-80 | The loop only adds rows, all of this session, unselected and without a format. Existing rows are untouched. |
| Upload.HandleUpload | server/uploadHandler.ts:15-91 | A rejected request leaves the store unchanged. A 200 answer reports uploadedCount equal to the number of supported files and to the number of photos listed. In a 200 answer, the k-th supported file has been put to storage under `totem-uploads/<session>/<k-th id>.<its extension>`. Its row is at the k-th new auto-increment id and records that key, the file's name and MIME type, and the URL storage returned. The k-th echoed photo carries that id, name and URL. An admitted request is never rejected: it is answered 200 or 500. A 500 answer means storage refused the put of some supported file under its key. |
| Upload.StoreFilesContents | server/uploadHandler.ts:50-80 | When the loop finishes without a storage error, each supported file, in request order, has its own row and its own echoed photo, holding its key, name, MIME type and storage URL. Unsupported files take no id. |
| Upload.StoreFilesFailure | server/uploadHandler.ts:50-80 | The loop fails only when storage refused the put of one of the supported files under that file's key. |
| Upload.StoredKeyKeepsExtension | server/uploadHandler.ts:58-59 | The key stored for each accepted photo ends in the original file's extension. |
| Upload.AdmittedUploadSucceeds | server/uploadHandler.ts:50-86 | With storage that always succeeds, an admitted request is answered 200 with one photo per supported file. |
| Upload.UnsupportedOnlyUploadsNothing | server/uploadHandler.ts:50-56 | A request of only unsupported types stores nothing and reports 0 uploaded. |
| Upload.UnsupportedOnlyAnswersEmpty | server/uploadHandler.ts:48-86 | An admitted request whose files all have unsupported types is answered 200 with no photos, and the database is unchanged. |
| Routers.CreateSession | server/routers.ts:30-44 | A new id gives an active session expiring 600000 ms after now. The id and expiry are returned. |
| Routers.NewSessionUploadWindow | server/routers.ts:32 | A new session admits a non-empty upload iff the request time is at most creation time plus ten minutes. |
| Routers.OrderNumberRoundTrip | server/routers.ts:88 | The order number reads back as the creation time and the random suffix. |
| Routers.OrderNumberHasShape | server/routers.ts:88 | With a six-character nanoid suffix, the order number matches `^ORD-\d+-[A-Za-z0-9_-]{6}$`. |
| Routers.EntriesOf | server/routers.ts:96-100 | One metadata entry per selected photo, in order, keeping fileKey, fileName and format. |
| Routers.CreateOrder | server/routers.ts:73-113 | The order row is stored pending with photoCount = the number of selected photos, under a new order number. Its metadata lists the selected photos in order, with a timestamp from a second clock reading. Then the session, if it exists, is marked completed. Nothing else changes. |
| Routers.ReceiptOfCreatedOrder | server/routers.ts:89-100 | The receipt of a new order counts every photo under its own format. The counts add up to photoCount, and the total is the priced sum. |
| Routers.EmptyOrderAccepted | server/routers.ts:77-89 | An empty selection creates an order with photoCount 0 and a zero total. |
| Routers.UpdatePhotoSelection | server/db.ts:156-166 | The answer is always success. Only the named photo changes: `selected` is set, and the format changes only when one is given. An unknown id changes nothing. |
| Routers.SelectionKeepsFormat | server/routers.ts:69-70 | Deselecting without a format keeps the format chosen before. |
| Text.NatToString | server/routers.ts:88 | Decimal rendering is non-empty, all digits, and has no leading zero. |
| Text.ParseNatToString | server/routers.ts:88 | Reading the rendering back gives the number. |
| Text.Split | server/printerManager.ts:72 | `split` gives at least one piece, no piece contains the separator, and joining the pieces gives back the string. |
| Text.SplitAppend | server/uploadHandler.ts:58 | Splitting `a + sep + b`, with b free of the separator, ends with the piece b. |
| Text.SplitPrepend | server/orderOrganizer.ts:41 | Splitting `a + sep + b`, with a free of the separator, starts with the piece a. |
| Text.SplitWords | server/printerManager.ts:191 | Words joined by single spaces split back into the same words. |

## Left out

- Image pixels: the JPEG encoding, resizing, quality settings and the image buffers are not modelled. Processing is modelled on the metadata the image library reports, and the result carries the extraction rectangle and the output size.
- `processMultipleForASK400` (server/ask400Processor.ts:137-155) runs `processForASK400` on each buffer in turn. It adds no logic beyond the single case.
- Queue timing: the random success and delay of the placeholder `printJob`, the 30 s watchdog timer, the 1 s cooldown and the 100 ms polling of `waitForCompletion` are nondeterministic. They become steps (Tick, Settled, Watchdog) that may happen in any order. Start and completion times are parameters.
- The print queue's EventEmitter and its logging listeners are replaced by an event log.
- `printOnWindows` and `printBufferToASK400`: the PowerShell script text and temporary-file handling are left out. Windows submission is a parameter outcome.
- `setDefaultPrinter`, `printImageBuffer` and the Windows PowerShell print command in server/printerManager.ts are shell effects with no decision logic. They are left out.
- File-system order storage: JSON reading and writing, directory creation, `saveProcessedImage`, `getOrderMetadata`, `listAllOrders`, `cleanupOldOrders` and the report's text layout are left out. The metadata value replaces the JSON file.
- OrderOrganizer.OrderPath: joins with "/" and does not model `path.join`'s normalisation. For example, a leading "./" of the default base directory is not removed.
- The receipt's PDF drawing, colours, coordinates and timestamp text are left out.
- Geometry.RoundDiv: the crop sizes are computed in exact integer arithmetic. The source multiplies and divides binary floating-point numbers before `Math.round` (server/ask400Processor.ts:49-62). The model does not follow floating-point rounding, so where the exact quotient lands on or next to a .5 tie the two can round differently.
- PrintDriver.PrintToASK400: the default arguments `printerName = 'Fujifilm ASK-400'` and `copies = 1` are not modelled. Both are parameters of the model, so a call that omits them is not covered.
- PrinterManager.PrintFile: the default `copies = 1` is not modelled. The copy count is a parameter of `UnixPrintCommand`, and the outcome of `PrintFile` does not depend on it.
- Receipt.GenerateReceipt: the amounts are exact centavos, while the source multiplies binary floating-point reais. Small rounding differences before `toFixed(2)` are not modelled.
- Database availability: `getDb` failing, which makes lookups return nothing and writes throw, is not modelled. The SQL queries are modelled as map operations. Users, authentication and the drizzle migrations are left out.
- Upload.HandleUpload: the request bytes, file sizes as sent to storage, and the multer configuration are left out. A storage failure becomes the catch-all 500, and rows written before it stay in the store.
- Routers.CreateSession: the length of nanoid identifiers (12 for sessions, 16 for files, 6 for orders) is not enforced. The identifiers are parameters. OrderNumberHasShape assumes a six-character suffix.
- Routers.UpdatePhotoSelection: only integer photo ids and selection values are modelled. The router accepts any JSON number (server/routers.ts:63-64). A fractional `photoId` matches no row, and a fractional `selected` is narrowed by the integer column (drizzle/schema.ts:54); neither case is modelled.
- `imageConverter.ts`, `calibrationTest.ts`, the Express route wiring and the whole client (React pages, Electron shell) are outside the server core and are not part of this model.

## Findings

| source | as written | input that shows it | evidently intended | confidence | as-written member | corrected member |
|---|---|---|---|---|---|---|
| server/ask400Processor.ts:90-107 | The crop is computed from the stored width and height reported by the metadata, which ignore the EXIF orientation. It is then applied after `.rotate()`, which turns the picture upright. | A 4000x3000 JPEG with EXIF orientation 6, printed as 10x15: crop (1001, 0, 1999, 3000) on a 3000x4000 picture, flush with the right edge. The same with 3000x4000 stored size: a 2666x4000 extraction on a 4000x3000 picture, so "bad extract area". | Compute the crop from the oriented size, so it is centred and inside the rotated picture. | medium, not executed | Geometry.ProcessForASK400 | Geometry.ProcessOriented |
| server/printQueue.ts:188-193 | `resume()` clears `isProcessing` and calls `processNext()` even while a job is printing, so a second job starts. | Add A (A starts printing) and B, then call resume: B starts while A's call is outstanding. When A settles, B is reported completed, and B's own settlement then finds no current job. | While a print is outstanding, resume starts nothing. At most one job prints at a time. | medium, not executed | PrintQueue.Resume | PrintQueue.ResumeFixed |
| server/orderOrganizer.ts:176-181 | A successful `markPhotoPrinted` keeps an error recorded by an earlier failure. | Add a photo, mark it failed with "papel", then mark it printed: printedPhotos 1, failedPhotos 1, and the report shows "Pendentes: -1". | A successful print supersedes an earlier failure, so no photo is both printed and failed and the pending figure is never negative. | medium, not executed | OrderOrganizer.MarkPhotoPrinted | OrderOrganizer.MarkPhotoPrintedFixed |

=== FILE: formats.dfy ===
/** The two physical print formats offered by the kiosk, and their textual names. */
module Formats {
  import opened Results

  /** A print size in centimetres: 10 x 15 or 15 x 21, both portrait. */
  datatype Format = F10x15 | F15x21

  /** The string the server and the database use for a format. */
  function Name(f: Format): string {
    match f
    case F10x15 => "10x15"
    case F15x21 => "15x21"
  }

  /** Reads a format name; any other string is not a format. */
  function Parse(s: string): (r: Option<Format>)
    ensures r.Some? <==> (s == "10x15" || s == "15x21")
    ensures r.Some? ==> Name(r.value) == s
  {
    if s == "10x15" then Some(F10x15)
    else if s == "15x21" then Some(F15x21)
    else None
  }

  /** Parsing a format's name gives the format back, so names are distinct. */
  lemma ParseName(f: Format)
    ensures Parse(Name(f)) == Some(f)
  {
  }
}

=== FILE: geometry.dfy ===
/**
 * Print geometry for the Fujifilm ASK-400 (server/ask400Processor.ts): the fixed
 * pixel size of each format, the centred crop that fills the print without a
 * border, the dimension guard of the processing pipeline and the validation of
 * a rendered image. The pixel work itself (EXIF rotation, extraction, resizing,
 * JPEG encoding) belongs to an image library; only the numbers it is given and
 * the errors it raises are modelled.
 */
module Geometry {
  import opened Results
  import opened Formats
  import Text

  /** Target raster of a format: pixels, resolution in dots per inch, and the paper size in centimetres. */
  datatype PrintSpec = PrintSpec(width: nat, height: nat, dpi: nat, cmWidth: nat, cmHeight: nat)

  /** The fixed table of print geometries. */
  function Spec(f: Format): PrintSpec {
    match f
    case F10x15 => PrintSpec(1181, 1772, 300, 10, 15)
    case F15x21 => PrintSpec(1772, 2480, 300, 15, 21)
  }

  /** `Math.round(p / q)` for a positive divisor: the nearest integer, an exact half rounded up. */
  function RoundDiv(p: int, q: int): (r: int)
    requires q > 0
    ensures 2 * q * r <= 2 * p + q < 2 * q * r + 2 * q
  {
    (2 * p + q) / (2 * q)
  }

  /** Pixels covering `cm` centimetres at `dpi` dots per inch (2.54 cm), rounded to the nearest pixel. */
  function PixelsFor(cm: nat, dpi: nat): int {
    RoundDiv(cm * dpi * 100, 254)
  }

  /**
   * Every format is printed at 300 dpi, its pixel size is its paper size at
   * that resolution rounded to the nearest pixel, and it is portrait.
   */
  lemma SpecIsPhysicalSize(f: Format)
    ensures Spec(f).dpi == 300
    ensures Spec(f).width == PixelsFor(Spec(f).cmWidth, Spec(f).dpi)
    ensures Spec(f).height == PixelsFor(Spec(f).cmHeight, Spec(f).dpi)
    ensures 0 < Spec(f).width < Spec(f).height
  {
  }

  /** A rectangle of the source image: offsets of its top-left corner and its size. */
  datatype Crop = Crop(left: int, top: int, width: int, height: int)

  predicate WithinImage(c: Crop, w: int, h: int) {
    && 0 <= c.left && 0 <= c.top && 0 <= c.width && 0 <= c.height
    && c.left + c.width <= w && c.top + c.height <= h
  }

  /** The source's aspect ratio `w/h` is strictly greater than the target's `tw/th`. */
  predicate WiderThan(w: int, h: int, tw: int, th: int) {
    w * th > tw * h
  }

  /** Along one axis, the leading margin equals the trailing one or exceeds it by one pixel. */
  predicate Centred(offset: int, size: int, total: int) {
    var trailing := total - offset - size;
    offset == trailing || offset == trailing + 1
  }

  /** Multiplying by a positive factor preserves the sign and the order of integers. */
  lemma MulPositive(a: int, d: int)
    requires a > 0
    ensures d >= 1 ==> a * d >= a
    ensures d <= -1 ==> a * d <= -a
    ensures d == 0 ==> a * d == 0
  {
  }

  /** A rounded quotient of a positive `p` that is at most `q * bound` stays within `[0, bound]` and within half a unit of `p / q`. */
  lemma RoundedWithin(p: int, q: int, bound: int)
    requires p > 0 && q > 0 && bound > 0
    requires p <= q * bound
    ensures 0 <= RoundDiv(p, q) <= bound
    ensures -q < 2 * (RoundDiv(p, q) * q - p) <= q
  {
    var r := RoundDiv(p, q);
    var rq := r * q;
    assert 2 * q * r == 2 * rq;
    assert 2 * rq <= 2 * p + q < 2 * rq + 2 * q;
    MulPositive(q, r);
    MulPositive(q, r - bound);
    assert q * r == rq;
    assert q * (r - bound) == rq - q * bound;
  }

  /** For a source wider than the target, the trimmed width lies within the source and within half a pixel of the aspect ratio. */
  lemma WideCropFits(w: int, h: int, tw: int, th: int)
    requires w > 0 && h > 0 && tw > 0 && th > 0
    requires WiderThan(w, h, tw, th)
    ensures 0 <= RoundDiv(h * tw, th) <= w
    ensures -th < 2 * (RoundDiv(h * tw, th) * th - h * tw) <= th
  {
    MulPositive(h, tw);
    assert h * tw <= th * w;
    RoundedWithin(h * tw, th, w);
  }

  /** For a source no wider than the target, the trimmed height lies within the source and within half a pixel of the aspect ratio. */
  lemma TallCropFits(w: int, h: int, tw: int, th: int)
    requires w > 0 && h > 0 && tw > 0 && th > 0
    requires !WiderThan(w, h, tw, th)
    ensures 0 <= RoundDiv(w * th, tw) <= h
    ensures -tw < 2 * (RoundDiv(w * th, tw) * tw - w * th) <= tw
  {
    MulPositive(w, th);
    assert w * th <= tw * h;
    RoundedWithin(w * th, tw, h);
  }

  lemma CropSidesFit(w: int, h: int, tw: int, th: int)
    requires w > 0 && h > 0 && tw > 0 && th > 0
    ensures WiderThan(w, h, tw, th) ==> 0 <= RoundDiv(h * tw, th) <= w
    ensures WiderThan(w, h, tw, th) ==> -th < 2 * (RoundDiv(h * tw, th) * th - h * tw) <= th
    ensures !WiderThan(w, h, tw, th) ==> 0 <= RoundDiv(w * th, tw) <= h
    ensures !WiderThan(w, h, tw, th) ==> -tw < 2 * (RoundDiv(w * th, tw) * tw - w * th) <= tw
  {
    if WiderThan(w, h, tw, th) {
      WideCropFits(w, h, tw, th);
    } else {
      TallCropFits(w, h, tw, th);
    }
  }

  /** Rounding half the remainder places a window of `size` centred inside `total`. */
  lemma CentredOffset(size: int, total: int)
    requires 0 <= size <= total
    ensures 0 <= RoundDiv(total - size, 2) && RoundDiv(total - size, 2) + size <= total
    ensures Centred(RoundDiv(total - size, 2), size, total)
  {
  }

  /**
   * `calculateCrop`: a source relatively wider than the target keeps its full
   * height and is trimmed left and right to the target's aspect ratio;
   * otherwise it keeps its full width and is trimmed top and bottom. The kept
   * window is centred, the odd pixel of an odd remainder going to the leading
   * (left or top) margin. The trimmed side is within half a pixel of the exact
   * aspect ratio.
   */
  function CalculateCrop(w: int, h: int, tw: int, th: int): (c: Crop)
    requires w > 0 && h > 0 && tw > 0 && th > 0
    ensures WithinImage(c, w, h)
    ensures WiderThan(w, h, tw, th) ==>
      c.height == h && c.top == 0 && -th < 2 * (c.width * th - h * tw) <= th
    ensures !WiderThan(w, h, tw, th) ==>
      c.width == w && c.left == 0 && -tw < 2 * (c.height * tw - w * th) <= tw
    ensures Centred(c.left, c.width, w) && Centred(c.top, c.height, h)
  {
    var wider := WiderThan(w, h, tw, th);
    var cropWidth := if wider then RoundDiv(h * tw, th) else w;
    var cropHeight := if wider then h else RoundDiv(w * th, tw);
    CropSidesFit(w, h, tw, th);
    CentredOffset(cropWidth, w);
    CentredOffset(cropHeight, h);
    Crop(RoundDiv(w - cropWidth, 2), RoundDiv(h - cropHeight, 2), cropWidth, cropHeight)
  }

  /** A source with exactly the target's aspect ratio is kept whole. */
  lemma ExactAspectNotCropped(w: int, h: int, tw: int, th: int)
    requires w > 0 && h > 0 && tw > 0 && th > 0
    requires w * th == tw * h
    ensures CalculateCrop(w, h, tw, th) == Crop(0, 0, w, h)
  {
    var c := CalculateCrop(w, h, tw, th);
    assert c.height * tw - w * th == tw * (c.height - h);
    MulPositive(2 * tw, c.height - h);
  }

  /**
   * Both formats are portrait, so a square source of either format keeps its
   * full height and is trimmed left and right only.
   */
  lemma SquareTrimmedLeftRight(n: int, f: Format)
    requires n > 0
    ensures WiderThan(n, n, Spec(f).width, Spec(f).height)
    ensures CalculateCrop(n, n, Spec(f).width, Spec(f).height).top == 0
    ensures CalculateCrop(n, n, Spec(f).width, Spec(f).height).height == n
    ensures CalculateCrop(n, n, Spec(f).width, Spec(f).height).width <= n
  {
  }

  /** For the two print formats the crop is never empty, whatever the (non-zero) source size. */
  lemma CropNonEmptyForSpecs(w: int, h: int, f: Format)
    requires w > 0 && h > 0
    ensures CalculateCrop(w, h, Spec(f).width, Spec(f).height).width >= 1
    ensures CalculateCrop(w, h, Spec(f).width, Spec(f).height).height >= 1
  {
    var s := Spec(f);
    var c := CalculateCrop(w, h, s.width, s.height);
    if WiderThan(w, h, s.width, s.height) {
      MulPositive(s.width, h);
      MulPositive(2 * s.height, c.width);
    } else {
      MulPositive(w, s.height);
      MulPositive(2 * s.width, c.height);
    }
  }

  /** What the image library reports about a source: size as stored, EXIF orientation tag, encoding. */
  datatype ImageMeta = ImageMeta(width: Option<nat>, height: Option<nat>, orientation: Option<nat>, format: Option<string>)

  /**
   * The result of `processForASK400`. The encoded pixel buffer is not
   * modelled; `region` is the rectangle handed to the extraction step, which
   * is then resized to exactly `width` x `height`.
   */
  datatype ProcessedImage = ProcessedImage(region: Crop, width: nat, height: nat, dpi: nat, format: Format)

  const InvalidImage: string := "Error: Imagem inválida: dimensões não detectadas"
  /** The image library's error for an extraction rectangle outside the image. */
  const BadExtractArea: string := "Error: extract_area: bad extract area"

  /** Every failure of the pipeline is rethrown with this prefix. */
  function ProcessFailure(cause: string): string {
    "Falha ao processar imagem para ASK-400: " + cause
  }

  /** EXIF orientations 5 to 8 are quarter turns: auto-rotation swaps width and height. */
  predicate SwapsAxes(orientation: Option<nat>) {
    orientation.Some? && 5 <= orientation.value <= 8
  }

  /** `metadata.width || 0` and `metadata.height || 0`: the stored size, absent read as zero. */
  function StoredWidth(m: ImageMeta): nat { m.width.GetOr(0) }
  function StoredHeight(m: ImageMeta): nat { m.height.GetOr(0) }

  /** Width and height of the picture once auto-rotation has applied its EXIF orientation. */
  function OrientedWidth(m: ImageMeta): nat {
    if SwapsAxes(m.orientation) then StoredHeight(m) else StoredWidth(m)
  }
  function OrientedHeight(m: ImageMeta): nat {
    if SwapsAxes(m.orientation) then StoredWidth(m) else StoredHeight(m)
  }

  /**
   * `processForASK400` as written: the crop is computed from the size the
   * library reports, which ignores the EXIF orientation, but it is applied
   * after auto-rotation. A zero (or unreported) dimension is rejected before
   * anything else; a crop that does not fit the rotated picture makes the
   * library fail. A successful result always has the format's exact pixel
   * size and resolution.
   */
  function ProcessForASK400(meta: Result<ImageMeta, string>, f: Format): (r: Result<ProcessedImage, string>)
    ensures meta.Err? ==> r == Err(ProcessFailure(meta.error))
    ensures meta.Ok? && (StoredWidth(meta.value) == 0 || StoredHeight(meta.value) == 0) ==>
      r == Err(ProcessFailure(InvalidImage))
    ensures r.Ok? ==>
      && r.value.width == Spec(f).width && r.value.height == Spec(f).height
      && r.value.dpi == Spec(f).dpi && r.value.format == f
    ensures meta.Ok? && StoredWidth(meta.value) > 0 && StoredHeight(meta.value) > 0 && !SwapsAxes(meta.value.orientation) ==>
      r.Ok? && r.value.region == CalculateCrop(StoredWidth(meta.value), StoredHeight(meta.value), Spec(f).width, Spec(f).height)
  {
    match meta
    case Err(e) => Err(ProcessFailure(e))
    case Ok(m) =>
      var w := StoredWidth(m);
      var h := StoredHeight(m);
      if w == 0 || h == 0 then Err(ProcessFailure(InvalidImage))
      else
        var spec := Spec(f);
        var crop := CalculateCrop(w, h, spec.width, spec.height);
        if !WithinImage(crop, OrientedWidth(m), OrientedHeight(m)) then Err(ProcessFailure(BadExtractArea))
        else Ok(ProcessedImage(crop, spec.width, spec.height, spec.dpi, f))
  }

  /**
   * The intended pipeline: the crop is computed from the picture as it stands
   * after auto-rotation. Every source with non-zero dimensions is then
   * processed, with a centred crop inside the rotated picture.
   */
  function ProcessOriented(meta: Result<ImageMeta, string>, f: Format): (r: Result<ProcessedImage, string>)
    ensures meta.Err? ==> r == Err(ProcessFailure(meta.error))
    ensures meta.Ok? && (StoredWidth(meta.value) == 0 || StoredHeight(meta.value) == 0) ==>
      r == Err(ProcessFailure(InvalidImage))
    ensures meta.Ok? && StoredWidth(meta.value) > 0 && StoredHeight(meta.value) > 0 ==>
      && r.Ok?
      && WithinImage(r.value.region, OrientedWidth(meta.value), OrientedHeight(meta.value))
      && Centred(r.value.region.left, r.value.region.width, OrientedWidth(meta.value))
      && Centred(r.value.region.top, r.value.region.height, OrientedHeight(meta.value))
    ensures r.Ok? ==>
      && r.value.width == Spec(f).width && r.value.height == Spec(f).height
      && r.value.dpi == Spec(f).dpi && r.value.format == f
  {
    match meta
    case Err(e) => Err(ProcessFailure(e))
    case Ok(m) =>
      var w := OrientedWidth(m);
      var h := OrientedHeight(m);
      if w == 0 || h == 0 then Err(ProcessFailure(InvalidImage))
      else
        var spec := Spec(f);
        Ok(ProcessedImage(CalculateCrop(w, h, spec.width, spec.height), spec.width, spec.height, spec.dpi, f))
  }

  /** Without an orientation that swaps the axes, the two pipelines agree. */
  lemma ProcessAgreesWithoutRotation(meta: Result<ImageMeta, string>, f: Format)
    requires meta.Ok? ==> !SwapsAxes(meta.value.orientation)
    ensures ProcessForASK400(meta, f) == ProcessOriented(meta, f)
  {
  }

  /**
   * A landscape-stored 4000 x 3000 photo tagged with orientation 6 (a portrait
   * shot) is cut at (1001, 0) with size 1999 x 3000 from the rotated
   * 3000 x 4000 picture: flush against its right edge instead of centred.
   */
  lemma RotatedPhotoCropOffCentre()
    ensures var r := ProcessForASK400(Ok(ImageMeta(Some(4000), Some(3000), Some(6), Some("jpeg"))), F10x15);
      && r.Ok?
      && r.value.region == Crop(1001, 0, 1999, 3000)
      && !Centred(r.value.region.left, r.value.region.width, 3000)
  {
    LandscapeCropFor10x15();
  }

  /** The 10x15 crop of a 4000 x 3000 source keeps the full height and trims 2001 columns. */
  lemma LandscapeCropFor10x15()
    ensures CalculateCrop(4000, 3000, 1181, 1772) == Crop(1001, 0, 1999, 3000)
  {
    assert WiderThan(4000, 3000, 1181, 1772);
    assert RoundDiv(3000 * 1181, 1772) == 1999;
    assert RoundDiv(4000 - 1999, 2) == 1001;
  }

  /**
   * A portrait-stored 3000 x 4000 photo tagged with orientation 6 gets a
   * 2666 x 4000 crop, taller than the rotated 4000 x 3000 picture: the
   * extraction fails, while the intended pipeline processes the photo.
   */
  lemma RotatedPhotoCropOutOfBounds()
    ensures var m := Ok(ImageMeta(Some(3000), Some(4000), Some(6), Some("jpeg")));
      && ProcessForASK400(m, F10x15) == Err(ProcessFailure(BadExtractArea))
      && ProcessOriented(m, F10x15).Ok?
  {
  }

  /** The answer of `validateForASK400`. */
  datatype Validation = Validation(valid: bool, message: string)

  /** `${value}` for a size the library may not report. */
  function ShowSize(n: Option<nat>): string {
    match n
    case Some(v) => Text.NatToString(v)
    case None => "undefined"
  }

  function ShowText(s: Option<string>): string {
    match s
    case Some(v) => v
    case None => "undefined"
  }

  const DimensionsPrefix: string := "Dimensões incorretas: esperado "
  const FormatPrefix: string := "Formato incorreto: esperado JPEG, recebido "
  const ReadErrorPrefix: string := "Erro ao validar imagem: "

  /**
   * `validateForASK400`: an image is valid exactly when the library reports
   * the format's pixel size and the JPEG encoding. A size mismatch is reported
   * first, whatever the encoding; a metadata read failure is reported as such.
   */
  function ValidateForASK400(meta: Result<ImageMeta, string>, f: Format): (v: Validation)
    ensures v.valid <==>
      && meta.Ok?
      && meta.value.width == Some(Spec(f).width) && meta.value.height == Some(Spec(f).height)
      && meta.value.format == Some("jpeg")
    ensures meta.Err? ==> Text.StartsWith(v.message, ReadErrorPrefix)
    ensures meta.Ok? && (meta.value.width != Some(Spec(f).width) || meta.value.height != Some(Spec(f).height)) ==>
      Text.StartsWith(v.message, DimensionsPrefix)
    ensures (&& meta.Ok? && meta.value.width == Some(Spec(f).width) && meta.value.height == Some(Spec(f).height)
             && meta.value.format != Some("jpeg")) ==> Text.StartsWith(v.message, FormatPrefix)
  {
    match meta
    case Err(e) =>
      Text.StartsWithConcat(ReadErrorPrefix, e);
      Validation(false, ReadErrorPrefix + e)
    case Ok(m) =>
      var spec := Spec(f);
      if m.width != Some(spec.width) || m.height != Some(spec.height) then
        var detail := Text.NatToString(spec.width) + "x" + Text.NatToString(spec.height)
          + ", recebido " + ShowSize(m.width) + "x" + ShowSize(m.height);
        Text.StartsWithConcat(DimensionsPrefix, detail);
        Validation(false, DimensionsPrefix + detail)
      else if m.format != Some("jpeg") then
        Text.StartsWithConcat(FormatPrefix, ShowText(m.format));
        Validation(false, FormatPrefix + ShowText(m.format))
      else
        Validation(true, "Imagem válida para ASK-400")
  }

  /** The JPEG rendered by the pipeline passes the validation for its format. */
  lemma ProcessedImagePassesValidation(meta: Result<ImageMeta, string>, f: Format)
    requires ProcessOriented(meta, f).Ok?
    ensures var p := ProcessOriented(meta, f).value;
      ValidateForASK400(Ok(ImageMeta(Some(p.width), Some(p.height), None, Some("jpeg"))), f).valid
  {
  }

  /** Settings the driver must use, as reported by `getASK400PrintInfo`. */
  datatype DriverSettings = DriverSettings(paperSize: string, orientation: string, scaling: string, quality: string, autoEnhance: bool)

  datatype PrintInfo = PrintInfo(format: Format, dimensions: string, pixels: string, dpi: nat, paperSize: string, driverSettings: DriverSettings)

  /**
   * `getASK400PrintInfo`: the format's size in centimetres and pixels, its
   * resolution, and the paper the driver must load (4x6 inches for 10x15,
   * 6x8 inches otherwise) in portrait at best quality and 100% scaling
   * without enhancement. The size in centimetres reads as the format's name.
   */
  function GetPrintInfo(f: Format): (info: PrintInfo)
    ensures info.format == f && info.dpi == Spec(f).dpi
    ensures info.pixels == Text.NatToString(Spec(f).width) + "x" + Text.NatToString(Spec(f).height) + " px"
    ensures info.driverSettings.paperSize == info.paperSize + " inches"
    ensures info.dimensions == Name(f) + " cm"
    ensures info.driverSettings.scaling == "100%" && !info.driverSettings.autoEnhance
    ensures info.driverSettings.orientation == "Portrait" && info.driverSettings.quality == "Best"
  {
    var spec := Spec(f);
    var paper := if f == F10x15 then "4x6" else "6x8";
    PrintInfo(f,
      Text.NatToString(spec.cmWidth) + "x" + Text.NatToString(spec.cmHeight) + " cm",
      Text.NatToString(spec.width) + "x" + Text.NatToString(spec.height) + " px",
      spec.dpi,
      paper,
      DriverSettings(paper + " inches", "Portrait", "100%", "Best", false))
  }
}

=== FILE: orderorganizer.dfy ===
/**
 * Order bookkeeping on the counter side (server/orderOrganizer.ts): the
 * directory layout of an order, its initial metadata, the recomputation of
 * counters on every update, appending a photo, marking a photo printed, and
 * the per-photo symbol and pending count of the order report. The JSON file
 * that holds the metadata is replaced by the metadata value itself: every
 * operation takes the current metadata and returns the new one.
 */
module OrderOrganizer {
  import opened Results
  import opened Formats
  import Text

  datatype OrderStatus = Pending | Processing | Printed | Failed

  datatype OrderPhoto = OrderPhoto(
    id: int,
    fileName: string,
    fileKey: string,
    format: Format,
    printed: bool,
    printedAt: Option<string>,
    error: Option<string>)

  /** The counters are plain numbers in the stored JSON, so any value can be written through an update. */
  datatype OrderMetadata = OrderMetadata(
    orderNumber: string,
    sessionId: string,
    createdAt: string,
    status: OrderStatus,
    photos: seq<OrderPhoto>,
    totalPhotos: int,
    printedPhotos: int,
    failedPhotos: int,
    notes: Option<string>)

  /** A photo counts as failed when its error is truthy (`filter(p => p.error)`). */
  predicate HasError(p: OrderPhoto) {
    Truthy(p.error)
  }

  function CountPrinted(photos: seq<OrderPhoto>): (n: nat)
    ensures n <= |photos|
    ensures n == 0 <==> forall k :: 0 <= k < |photos| ==> !(photos[k].printed)
    ensures n == |photos| <==> forall k :: 0 <= k < |photos| ==> photos[k].printed
  {
    if |photos| == 0 then 0 else (if photos[0].printed then 1 else 0) + CountPrinted(photos[1..])
  }

  function CountFailed(photos: seq<OrderPhoto>): (n: nat)
    ensures n <= |photos|
    ensures n == 0 <==> forall k :: 0 <= k < |photos| ==> !(HasError(photos[k]))
    ensures n == |photos| <==> forall k :: 0 <= k < |photos| ==> HasError(photos[k])
  {
    if |photos| == 0 then 0 else (if HasError(photos[0]) then 1 else 0) + CountFailed(photos[1..])
  }

  lemma {:induction false} CountPrintedAppend(a: seq<OrderPhoto>, b: seq<OrderPhoto>)
    ensures CountPrinted(a + b) == CountPrinted(a) + CountPrinted(b)
    decreases |a|
  {
    if |a| == 0 {
      assert a + b == b;
    } else {
      assert (a + b)[1..] == a[1..] + b;
      CountPrintedAppend(a[1..], b);
    }
  }

  lemma {:induction false} CountFailedAppend(a: seq<OrderPhoto>, b: seq<OrderPhoto>)
    ensures CountFailed(a + b) == CountFailed(a) + CountFailed(b)
    decreases |a|
  {
    if |a| == 0 {
      assert a + b == b;
    } else {
      assert (a + b)[1..] == a[1..] + b;
      CountFailedAppend(a[1..], b);
    }
  }

  /** The counters agree with the photo list. */
  predicate Consistent(m: OrderMetadata) {
    && m.totalPhotos == |m.photos|
    && m.printedPhotos == CountPrinted(m.photos)
    && m.failedPhotos == CountFailed(m.photos)
  }

  /** The name of the order's folder under the day's folder. */
  function OrderFolder(orderNumber: string): string {
    "Pedido_" + orderNumber
  }

  /** `toISOString().split('T')[0]`: the date part of an ISO timestamp. */
  function DatePart(iso: string): (d: string)
    ensures 'T' !in d
  {
    Text.Split(iso, 'T')[0]
  }

  /** The date part of `<date>T<time>` is `<date>`. */
  lemma DatePartOfTimestamp(date: string, time: string)
    requires 'T' !in date && 'T' !in time
    ensures DatePart(date + "T" + time) == date
  {
    Text.SplitAppend(date, 'T', time);
    Text.SplitNoSep(date, 'T');
  }

  /** `<base>/<YYYY-MM-DD>/Pedido_<orderNumber>`. */
  function OrderPath(base: string, nowIso: string, orderNumber: string): string {
    base + "/" + DatePart(nowIso) + "/" + OrderFolder(orderNumber)
  }

  /** The three sub-folders created inside an order's folder. */
  function SubFolders(orderPath: string): seq<string> {
    [orderPath + "/" + Name(F10x15), orderPath + "/" + Name(F15x21), orderPath + "/originais"]
  }

  /**
   * Read back as a path, the order's folder sits two levels below the base:
   * its components are the base's, then the day, then `Pedido_<n>`.
   */
  lemma OrderPathComponents(base: string, date: string, time: string, orderNumber: string)
    requires 'T' !in date && 'T' !in time && '/' !in date && '/' !in orderNumber
    ensures Text.Split(OrderPath(base, date + "T" + time, orderNumber), '/')
      == Text.Split(base, '/') + [date, OrderFolder(orderNumber)]
  {
    DatePartOfTimestamp(date, time);
    var folder := OrderFolder(orderNumber);
    assert '/' !in folder by { assert folder[..7] == "Pedido_"; assert folder[7..] == orderNumber; }
    assert OrderPath(base, date + "T" + time, orderNumber) == (base + ['/'] + date) + ['/'] + folder;
    Text.SplitAppend(base + ['/'] + date, '/', folder);
    Text.SplitAppend(base, '/', date);
  }

  /** Each sub-folder is the order's folder followed by one more component, the format name or `originais`. */
  lemma SubFoldersOfOrder(orderPath: string)
    ensures forall k :: 0 <= k < 3 ==> Text.StartsWith(SubFolders(orderPath)[k], orderPath + "/")
    ensures Text.LastPiece(SubFolders(orderPath)[0], '/') == "10x15"
    ensures Text.LastPiece(SubFolders(orderPath)[1], '/') == "15x21"
    ensures Text.LastPiece(SubFolders(orderPath)[2], '/') == "originais"
  {
    Text.LastPieceAfterLastSep(orderPath, '/', "10x15");
    Text.LastPieceAfterLastSep(orderPath, '/', "15x21");
    Text.LastPieceAfterLastSep(orderPath, '/', "originais");
    assert orderPath + "/" + Name(F10x15) == orderPath + ['/'] + "10x15";
    assert orderPath + "/" + Name(F15x21) == orderPath + ['/'] + "15x21";
    assert orderPath + "/originais" == orderPath + ['/'] + "originais";
  }

  /** The metadata written when an order's folders are created. */
  function NewMetadata(orderNumber: string, sessionId: string, nowIso: string): (m: OrderMetadata)
    ensures m.status == Pending && m.photos == []
    ensures m.totalPhotos == 0 && m.printedPhotos == 0 && m.failedPhotos == 0
    ensures m.orderNumber == orderNumber && m.sessionId == sessionId && m.createdAt == nowIso
    ensures Consistent(m) && PendingCount(m) == 0
  {
    OrderMetadata(orderNumber, sessionId, nowIso, Pending, [], 0, 0, 0, None)
  }

  /** `Partial<OrderMetadata>`: a present field overrides the current one. */
  datatype MetadataUpdate = MetadataUpdate(
    orderNumber: Option<string>,
    sessionId: Option<string>,
    createdAt: Option<string>,
    status: Option<OrderStatus>,
    photos: Option<seq<OrderPhoto>>,
    totalPhotos: Option<int>,
    printedPhotos: Option<int>,
    failedPhotos: Option<int>,
    notes: Option<string>)

  /** An update that only replaces the photo list, as `addPhotoToOrder` and `markPhotoPrinted` send. */
  function PhotosOnly(photos: seq<OrderPhoto>): MetadataUpdate {
    MetadataUpdate(None, None, None, None, Some(photos), None, None, None, None)
  }

  /** `{ ...current, ...updates }` followed by the recount of the three counters. */
  function UpdateMetadata(current: OrderMetadata, u: MetadataUpdate): (m: OrderMetadata)
    ensures Consistent(m)
    ensures m.photos == u.photos.GetOr(current.photos)
    ensures m.orderNumber == u.orderNumber.GetOr(current.orderNumber)
    ensures m.sessionId == u.sessionId.GetOr(current.sessionId)
    ensures m.createdAt == u.createdAt.GetOr(current.createdAt)
    ensures m.status == u.status.GetOr(current.status)
    ensures m.notes == (if u.notes.Some? then u.notes else current.notes)
  {
    var photos := u.photos.GetOr(current.photos);
    OrderMetadata(
      u.orderNumber.GetOr(current.orderNumber),
      u.sessionId.GetOr(current.sessionId),
      u.createdAt.GetOr(current.createdAt),
      u.status.GetOr(current.status),
      photos,
      |photos|, CountPrinted(photos), CountFailed(photos),
      if u.notes.Some? then u.notes else current.notes)
  }

  /** Counter values carried by an update have no effect on the result. */
  lemma UpdateIgnoresCounters(current: OrderMetadata, u: MetadataUpdate, total: Option<int>, printed: Option<int>, failed: Option<int>)
    ensures UpdateMetadata(current, u) == UpdateMetadata(current, u.(totalPhotos := total, printedPhotos := printed, failedPhotos := failed))
  {
  }

  /** Applying the same update twice is the same as applying it once. */
  lemma UpdateIdempotent(current: OrderMetadata, u: MetadataUpdate)
    ensures UpdateMetadata(UpdateMetadata(current, u), u) == UpdateMetadata(current, u)
  {
  }

  /** An update that replaces nothing only repairs the counters: consistent metadata is returned as it is. */
  lemma EmptyUpdateKeepsConsistent(m: OrderMetadata)
    requires Consistent(m)
    ensures UpdateMetadata(m, MetadataUpdate(None, None, None, None, None, None, None, None, None)) == m
  {
  }

  /** Everything but the photo list and its counters is the same: an update carrying only `{ photos }` leaves it alone. */
  predicate SameHeader(a: OrderMetadata, b: OrderMetadata) {
    a.orderNumber == b.orderNumber && a.sessionId == b.sessionId && a.createdAt == b.createdAt &&
    a.status == b.status && a.notes == b.notes
  }

  /** `addPhotoToOrder`: the photo goes at the end of the list and the counters are recomputed. */
  function AddPhoto(m: OrderMetadata, p: OrderPhoto): (r: OrderMetadata)
    ensures r.photos == m.photos + [p]
    ensures Consistent(r) && r.totalPhotos == |m.photos| + 1
    ensures SameHeader(r, m)
  {
    UpdateMetadata(m, PhotosOnly(m.photos + [p]))
  }

  /** On consistent metadata, adding a photo moves each counter by exactly that photo's share. */
  lemma AddPhotoCounters(m: OrderMetadata, p: OrderPhoto)
    requires Consistent(m)
    ensures AddPhoto(m, p).totalPhotos == m.totalPhotos + 1
    ensures AddPhoto(m, p).printedPhotos == m.printedPhotos + (if p.printed then 1 else 0)
    ensures AddPhoto(m, p).failedPhotos == m.failedPhotos + (if HasError(p) then 1 else 0)
  {
    CountPrintedAppend(m.photos, [p]);
    CountFailedAppend(m.photos, [p]);
    assert [p][1..] == [];
  }

  /** `photos.find(p => p.id === photoId)`: the position of the first photo with that id. */
  function FindPhoto(photos: seq<OrderPhoto>, id: int): Option<nat> {
    FindIndex(photos, (p: OrderPhoto) => p.id == id)
  }

  /**
   * The change made to the found photo, as written: success sets `printed`
   * and `printedAt` and leaves any earlier error; failure clears `printed`
   * and records the error only when one is given.
   */
  function MarkAsWritten(p: OrderPhoto, success: bool, error: Option<string>, nowIso: string): (q: OrderPhoto)
    ensures q.id == p.id && q.fileName == p.fileName && q.fileKey == p.fileKey && q.format == p.format
    ensures q.printed == success
    ensures success ==> q.printedAt == Some(nowIso) && q.error == p.error
    ensures !success ==> q.printedAt == p.printedAt
    ensures !success ==> q.error == (if Truthy(error) then error else p.error)
  {
    if success then p.(printed := true, printedAt := Some(nowIso))
    else if Truthy(error) then p.(printed := false, error := error)
    else p.(printed := false)
  }

  /** The corrected change: a successful print also clears an earlier error. */
  function MarkCorrected(p: OrderPhoto, success: bool, error: Option<string>, nowIso: string): (q: OrderPhoto)
    ensures q.id == p.id && q.fileName == p.fileName && q.fileKey == p.fileKey && q.format == p.format
    ensures q.printed == success
    ensures success ==> q.printedAt == Some(nowIso) && q.error.None?
    ensures !success ==> q == MarkAsWritten(p, success, error, nowIso)
    ensures !(q.printed && HasError(q))
  {
    if success then p.(printed := true, printedAt := Some(nowIso), error := None)
    else MarkAsWritten(p, success, error, nowIso)
  }

  /** The photo list with the first photo of that id changed by `change`, or unchanged when there is none. */
  function ChangeFirst(photos: seq<OrderPhoto>, id: int, q: OrderPhoto -> OrderPhoto): (r: seq<OrderPhoto>)
    ensures |r| == |photos|
    ensures FindPhoto(photos, id).None? ==> r == photos
    ensures FindPhoto(photos, id).Some? ==> r == photos[FindPhoto(photos, id).value := q(photos[FindPhoto(photos, id).value])]
  {
    match FindPhoto(photos, id)
    case Some(k) => photos[k := q(photos[k])]
    case None => photos
  }

  /** `markPhotoPrinted` as written. */
  function MarkPhotoPrinted(m: OrderMetadata, photoId: int, success: bool, error: Option<string>, nowIso: string): (r: OrderMetadata)
    ensures Consistent(r) && SameHeader(r, m)
    ensures FindPhoto(m.photos, photoId).None? ==> r.photos == m.photos
    ensures FindPhoto(m.photos, photoId).Some? ==>
      var k := FindPhoto(m.photos, photoId).value;
      r.photos == m.photos[k := MarkAsWritten(m.photos[k], success, error, nowIso)]
  {
    UpdateMetadata(m, PhotosOnly(ChangeFirst(m.photos, photoId, p => MarkAsWritten(p, success, error, nowIso))))
  }

  /** `markPhotoPrinted` with the corrected change. */
  function MarkPhotoPrintedFixed(m: OrderMetadata, photoId: int, success: bool, error: Option<string>, nowIso: string): (r: OrderMetadata)
    ensures Consistent(r) && SameHeader(r, m)
    ensures FindPhoto(m.photos, photoId).None? ==> r.photos == m.photos
    ensures FindPhoto(m.photos, photoId).Some? ==>
      var k := FindPhoto(m.photos, photoId).value;
      r.photos == m.photos[k := MarkCorrected(m.photos[k], success, error, nowIso)]
  {
    UpdateMetadata(m, PhotosOnly(ChangeFirst(m.photos, photoId, p => MarkCorrected(p, success, error, nowIso))))
  }

  /** The report's mark for a photo: printed, else failed, else waiting. */
  function ReportSymbol(p: OrderPhoto): (c: char)
    ensures c == '✓' <==> p.printed
    ensures c == '✗' <==> !p.printed && HasError(p)
    ensures c == '○' <==> !p.printed && !HasError(p)
  {
    if p.printed then '✓' else if HasError(p) then '✗' else '○'
  }

  /** The report's `Pendentes` figure. */
  function PendingCount(m: OrderMetadata): int {
    m.totalPhotos - m.printedPhotos - m.failedPhotos
  }

  function CountWaiting(photos: seq<OrderPhoto>): (n: nat)
    ensures n <= |photos|
    ensures n == 0 <==> forall k :: 0 <= k < |photos| ==> !(ReportSymbol(photos[k]) == '○')
    ensures n == |photos| <==> forall k :: 0 <= k < |photos| ==> ReportSymbol(photos[k]) == '○'
  {
    if |photos| == 0 then 0 else (if ReportSymbol(photos[0]) == '○' then 1 else 0) + CountWaiting(photos[1..])
  }

  /** Photos counted twice, as printed and as failed. */
  function CountBoth(photos: seq<OrderPhoto>): (n: nat)
    ensures n <= |photos|
    ensures n == 0 <==> forall k :: 0 <= k < |photos| ==> !(photos[k].printed && HasError(photos[k]))
    ensures n == |photos| <==> forall k :: 0 <= k < |photos| ==> photos[k].printed && HasError(photos[k])
  {
    if |photos| == 0 then 0 else (if photos[0].printed && HasError(photos[0]) then 1 else 0) + CountBoth(photos[1..])
  }

  lemma {:induction false} PendingByPhotos(photos: seq<OrderPhoto>)
    ensures |photos| - CountPrinted(photos) - CountFailed(photos) == CountWaiting(photos) - CountBoth(photos)
    decreases |photos|
  {
    if |photos| > 0 {
      PendingByPhotos(photos[1..]);
    }
  }

  /**
   * On consistent metadata the pending figure is the number of photos shown
   * `○`, less the photos that are both printed and errored: it is the true
   * waiting count only when no photo is both.
   */
  lemma PendingIsWaitingLessDoubleCounted(m: OrderMetadata)
    requires Consistent(m)
    ensures PendingCount(m) == CountWaiting(m.photos) - CountBoth(m.photos)
  {
    PendingByPhotos(m.photos);
  }

  /** No photo is both printed and errored. */
  predicate NoDoubleCount(photos: seq<OrderPhoto>) {
    forall k :: 0 <= k < |photos| ==> !(photos[k].printed && HasError(photos[k]))
  }

  lemma {:induction false} NoDoubleCountHasNoBoth(photos: seq<OrderPhoto>)
    requires NoDoubleCount(photos)
    ensures CountBoth(photos) == 0
    decreases |photos|
  {
    if |photos| > 0 {
      assert NoDoubleCount(photos[1..]) by {
        forall k | 0 <= k < |photos[1..]| ensures !(photos[1..][k].printed && HasError(photos[1..][k])) {
          assert photos[1..][k] == photos[k + 1];
        }
      }
      NoDoubleCountHasNoBoth(photos[1..]);
    }
  }

  /** The photo a test order starts with: not yet printed. */
  function SamplePhoto(): OrderPhoto {
    OrderPhoto(1, "foto.jpg", "totem-uploads/s/a.jpg", F10x15, false, None, None)
  }

  /** Counters of a one-photo order. */
  lemma SingleCounts(p: OrderPhoto)
    ensures CountPrinted([p]) == (if p.printed then 1 else 0)
    ensures CountFailed([p]) == (if HasError(p) then 1 else 0)
  {
    assert [p][1..] == [];
  }

  /** Marking the only photo of an order changes exactly that photo. */
  lemma MarkSingle(m: OrderMetadata, p: OrderPhoto, success: bool, error: Option<string>, nowIso: string)
    requires m.photos == [p]
    ensures MarkPhotoPrinted(m, p.id, success, error, nowIso).photos == [MarkAsWritten(p, success, error, nowIso)]
    ensures MarkPhotoPrintedFixed(m, p.id, success, error, nowIso).photos == [MarkCorrected(p, success, error, nowIso)]
  {
    assert FindPhoto(m.photos, p.id) == Some(0);
  }

  /**
   * A failed print followed by a successful retry, as written: the photo
   * keeps its error, counts as printed and as failed, and the order shows
   * one photo printed and `-1` pending.
   */
  lemma RetriedPhotoCountsTwice(m0: OrderMetadata)
    requires m0.photos == [SamplePhoto()]
    ensures var m2 := MarkPhotoPrinted(MarkPhotoPrinted(m0, 1, false, Some("papel"), "t1"), 1, true, None, "t2");
            m2.printedPhotos == 1 && m2.failedPhotos == 1 && PendingCount(m2) == -1
  {
    var m1 := MarkPhotoPrinted(m0, 1, false, Some("papel"), "t1");
    MarkSingle(m0, SamplePhoto(), false, Some("papel"), "t1");
    var p1 := MarkAsWritten(SamplePhoto(), false, Some("papel"), "t1");
    MarkSingle(m1, p1, true, None, "t2");
    var p2 := MarkAsWritten(p1, true, None, "t2");
    SingleCounts(p2);
  }

  /** The order of the scenarios: a new order with the sample photo added. */
  lemma SampleOrder()
    ensures AddPhoto(NewMetadata("ORD-1", "s", "2024-01-01T00:00:00.000Z"), SamplePhoto()).photos == [SamplePhoto()]
  {
  }

  /** With the corrected marking, no photo is ever counted twice. */
  lemma MarkFixedKeepsNoDoubleCount(m: OrderMetadata, photoId: int, success: bool, error: Option<string>, nowIso: string)
    requires NoDoubleCount(m.photos)
    ensures NoDoubleCount(MarkPhotoPrintedFixed(m, photoId, success, error, nowIso).photos)
  {
  }

  /** Adding an unprinted or error-free photo keeps no photo counted twice. */
  lemma AddPhotoKeepsNoDoubleCount(m: OrderMetadata, p: OrderPhoto)
    requires NoDoubleCount(m.photos) && !(p.printed && HasError(p))
    ensures NoDoubleCount(AddPhoto(m, p).photos)
  {
  }

  /**
   * Hence, with the corrected marking, the pending figure of consistent
   * metadata is exactly the number of photos shown `○`, and never negative.
   */
  lemma PendingExactWithoutDoubleCount(m: OrderMetadata)
    requires Consistent(m) && NoDoubleCount(m.photos)
    ensures PendingCount(m) == CountWaiting(m.photos) && PendingCount(m) >= 0
  {
    PendingByPhotos(m.photos);
    NoDoubleCountHasNoBoth(m.photos);
  }

  /** The corrected retry scenario: the photo ends printed only, with nothing pending. */
  lemma RetriedPhotoCountsOnceFixed(m0: OrderMetadata)
    requires m0.photos == [SamplePhoto()]
    ensures var m2 := MarkPhotoPrintedFixed(MarkPhotoPrintedFixed(m0, 1, false, Some("papel"), "t1"), 1, true, None, "t2");
            m2.printedPhotos == 1 && m2.failedPhotos == 0 && PendingCount(m2) == 0
  {
    var m1 := MarkPhotoPrintedFixed(m0, 1, false, Some("papel"), "t1");
    MarkSingle(m0, SamplePhoto(), false, Some("papel"), "t1");
    var p1 := MarkCorrected(SamplePhoto(), false, Some("papel"), "t1");
    MarkSingle(m1, p1, true, None, "t2");
    var p2 := MarkCorrected(p1, true, None, "t2");
    SingleCounts(p2);
  }
}

=== FILE: platform.dfy ===
/**
 * The operating systems the server tells apart through `os.platform()`.
 * Every other value the call can return leads to the same "unsupported"
 * branch, so one constructor stands for all of them.
 */
module Platforms {
  datatype Platform = Win32 | Linux | Darwin | OtherPlatform

  /** The platforms with a printing path of their own. */
  predicate Supported(p: Platform) {
    p.Win32? || p.Linux? || p.Darwin?
  }
}

=== FILE: printerdriver.dfy ===
/**
 * The ASK-400 print driver adapter (server/ask400PrintDriver.ts): the default
 * settings per format, the paper-size mapping, the settings validator, the
 * `lp` command lines for Linux and macOS, and the outcome of a print request
 * on each platform. Running the command, writing temporary files and the
 * PowerShell script for Windows are operating-system effects: their success
 * or failure is an input.
 */
module PrintDriver {
  import opened Results
  import opened Formats
  import Text
  import Geometry
  import opened Platforms

  datatype Quality = Best | High | Normal

  /** Complete print settings for the ASK-400. */
  datatype Settings = Settings(printerName: string, format: Format, copies: int, quality: Quality, scaling: int, autoEnhance: bool)

  const DefaultPrinter: string := "Fujifilm ASK-400"

  /** `getWindowsPaperSize`: the paper loaded for each format, in inches. */
  function PaperSize(f: Format): (p: string)
    ensures p == "4x6" <==> f == F10x15
    ensures p == "6x8" <==> f == F15x21
  {
    match f
    case F10x15 => assert "4x6"[0] == '4'; "4x6"
    case F15x21 => assert "6x8"[0] == '6'; "6x8"
  }

  /** `getASK400Config`, reading the defaults table: one copy at the best quality on the ASK-400, 100% scaling, no enhancement. */
  function GetConfig(f: Format): (s: Settings)
    ensures s.format == f && s.copies == 1 && s.quality == Best && s.printerName == DefaultPrinter
    ensures ValidateSettings(AsPartial(s)).valid
  {
    match f
    case F10x15 => Settings(DefaultPrinter, F10x15, 1, Best, 100, false)
    case F15x21 => Settings(DefaultPrinter, F15x21, 1, Best, 100, false)
  }

  /** Settings as received from a caller: any field may be missing, and the format is an arbitrary string. */
  datatype PartialSettings = PartialSettings(
    printerName: Option<string>,
    format: Option<string>,
    copies: Option<int>,
    quality: Option<Quality>,
    scaling: Option<int>,
    autoEnhance: Option<bool>)

  function AsPartial(s: Settings): PartialSettings {
    PartialSettings(Some(s.printerName), Some(Name(s.format)), Some(s.copies), Some(s.quality), Some(s.scaling), Some(s.autoEnhance))
  }

  /** The four checks of the validator, in the order it runs them. */
  datatype SettingsError = NoPrinterName | InvalidFormat | ScalingNot100 | EnhanceEnabled

  function Message(e: SettingsError): string {
    match e
    case NoPrinterName => "Nome da impressora não especificado"
    case InvalidFormat => "Formato inválido"
    case ScalingNot100 => "Escala deve ser sempre 100%"
    case EnhanceEnabled => "Auto-enhance deve estar desativado"
  }

  function Rank(e: SettingsError): nat {
    match e
    case NoPrinterName => 0
    case InvalidFormat => 1
    case ScalingNot100 => 2
    case EnhanceEnabled => 3
  }

  /** The errors are listed in the order the checks run. */
  predicate Ascending(errs: seq<SettingsError>) {
    forall i, j :: 0 <= i < j < |errs| ==> Rank(errs[i]) < Rank(errs[j])
  }

  /** `if (failed) errors.push(e)` after the checks ranked below `e`. */
  function PushIf(errs: seq<SettingsError>, failed: bool, e: SettingsError): (r: seq<SettingsError>)
    requires Ascending(errs) && forall k :: 0 <= k < |errs| ==> Rank(errs[k]) < Rank(e)
    ensures Ascending(r) && forall k :: 0 <= k < |r| ==> Rank(r[k]) <= Rank(e)
    ensures e in r <==> failed
    ensures forall x :: x in r <==> x in errs || (failed && x == e)
    ensures |r| == |errs| + (if failed then 1 else 0)
  {
    if failed then errs + [e] else errs
  }

  /**
   * The failed checks of `validateASK400Settings`: a missing or empty printer
   * name, a missing or unknown format, scaling other than 100 (absent
   * included), auto-enhance other than false (absent included), each
   * reported once and in that order.
   */
  function FailedChecks(s: PartialSettings): (errs: seq<SettingsError>)
    ensures NoPrinterName in errs <==> !Truthy(s.printerName)
    ensures InvalidFormat in errs <==> !Truthy(s.format) || Parse(s.format.value).None?
    ensures ScalingNot100 in errs <==> s.scaling != Some(100)
    ensures EnhanceEnabled in errs <==> s.autoEnhance != Some(false)
    ensures forall i, j :: 0 <= i < j < |errs| ==> Rank(errs[i]) < Rank(errs[j])
    ensures |errs| <= 4
  {
    var e1 := PushIf([], !Truthy(s.printerName), NoPrinterName);
    var e2 := PushIf(e1, !Truthy(s.format) || Parse(s.format.value).None?, InvalidFormat);
    var e3 := PushIf(e2, s.scaling != Some(100), ScalingNot100);
    PushIf(e3, s.autoEnhance != Some(false), EnhanceEnabled)
  }

  function Messages(errs: seq<SettingsError>): (ms: seq<string>)
    ensures |ms| == |errs|
    ensures forall k :: 0 <= k < |errs| ==> ms[k] == Message(errs[k])
  {
    if |errs| == 0 then [] else [Message(errs[0])] + Messages(errs[1..])
  }

  datatype SettingsValidation = SettingsValidation(valid: bool, errors: seq<string>)

  /** `validateASK400Settings`: the messages of the failed checks, valid exactly when no check failed. */
  function ValidateSettings(s: PartialSettings): (v: SettingsValidation)
    ensures v.valid <==> |v.errors| == 0
    ensures v.valid <==> (Truthy(s.printerName) && s.format.Some? && Parse(s.format.value).Some?
                          && s.scaling == Some(100) && s.autoEnhance == Some(false))
    ensures v.errors == Messages(FailedChecks(s))
  {
    var errs := FailedChecks(s);
    assert |errs| > 0 ==> errs[0] in errs;
    SettingsValidation(|errs| == 0, Messages(errs))
  }

  /** The shared beginning of both `lp` command lines: printer and media. */
  function LpHead(s: Settings): string {
    "lp -d " + s.printerName + " -o media=" + PaperSize(s.format)
  }

  /** The shared end of both `lp` command lines: copies and the quoted file path. */
  function LpTail(imagePath: string, s: Settings): string {
    " -n " + Text.IntToString(s.copies) + " \"" + imagePath + "\""
  }

  /** The command `printOnLinux` runs. */
  function LinuxCommand(imagePath: string, s: Settings): string {
    "lp -d " + s.printerName + " -o media=" + PaperSize(s.format) + " -o sides=one-sided -n "
      + Text.IntToString(s.copies) + " \"" + imagePath + "\""
  }

  /** The command `printOnMac` runs. */
  function MacCommand(imagePath: string, s: Settings): string {
    "lp -d " + s.printerName + " -o media=" + PaperSize(s.format) + " -n "
      + Text.IntToString(s.copies) + " \"" + imagePath + "\""
  }

  /** The Linux command is the macOS command with the one-sided option inserted before the copy count. */
  lemma LinuxIsMacPlusOneSided(imagePath: string, s: Settings)
    ensures LinuxCommand(imagePath, s) == LpHead(s) + " -o sides=one-sided" + LpTail(imagePath, s)
    ensures MacCommand(imagePath, s) == LpHead(s) + LpTail(imagePath, s)
  {
  }

  function MacWords(imagePath: string, s: Settings): seq<string>
    requires s.copies >= 0
  {
    ["lp", "-d", s.printerName, "-o", "media=" + PaperSize(s.format), "-n", Text.NatToString(s.copies), "\"" + imagePath + "\""]
  }

  lemma MacCommandIsWords(imagePath: string, s: Settings)
    requires s.copies >= 0
    ensures MacCommand(imagePath, s) == Text.Words(MacWords(imagePath, s))
  {
    var ws := MacWords(imagePath, s);
    assert Text.Words(ws[..1]) == "lp";
    assert ws[..2][..1] == ws[..1];
    assert Text.Words(ws[..2]) == "lp -d";
    assert ws[..3][..2] == ws[..2];
    assert Text.Words(ws[..3]) == "lp -d " + s.printerName;
    assert ws[..4][..3] == ws[..3];
    assert Text.Words(ws[..4]) == "lp -d " + s.printerName + " -o";
    assert ws[..5][..4] == ws[..4];
    assert Text.Words(ws[..5]) == "lp -d " + s.printerName + " -o media=" + PaperSize(s.format);
    assert ws[..6][..5] == ws[..5];
    assert Text.Words(ws[..6]) == "lp -d " + s.printerName + " -o media=" + PaperSize(s.format) + " -n";
    assert ws[..7][..6] == ws[..6];
    assert Text.Words(ws[..7]) == "lp -d " + s.printerName + " -o media=" + PaperSize(s.format) + " -n " + Text.NatToString(s.copies);
    assert ws[..8][..7] == ws[..7];
    assert ws[..8] == ws;
  }

  /**
   * When neither printer name nor path contains a space, the shell splits
   * the macOS command into exactly the words `lp -d <printer> -o
   * media=<paper> -n <copies> "<path>"`.
   */
  lemma MacCommandWords(imagePath: string, s: Settings)
    requires ' ' !in s.printerName && ' ' !in imagePath && s.copies >= 0
    ensures Text.Split(MacCommand(imagePath, s), ' ') == MacWords(imagePath, s)
  {
    var ws := MacWords(imagePath, s);
    MacCommandIsWords(imagePath, s);
    assert ' ' !in ws[6] by { assert Text.AllDigits(ws[6]); }
    assert ' ' !in ws[4] by { assert ' ' !in PaperSize(s.format); }
    assert ' ' !in ws[7] by { assert ws[7] == "\"" + imagePath + "\""; }
    Text.SplitWords(ws);
  }

  /** The shell command submitted on each platform; Windows runs a generated PowerShell script instead, and other systems submit nothing. */
  function SubmittedCommand(p: Platform, imagePath: string, s: Settings): (c: Option<string>)
    ensures c.Some? <==> (p.Linux? || p.Darwin?)
  {
    match p
    case Linux => Some(LinuxCommand(imagePath, s))
    case Darwin => Some(MacCommand(imagePath, s))
    case _ => None
  }

  datatype PrintResult = PrintResult(success: bool, message: string)

  const FileMissing: string := "Arquivo de imagem não encontrado"
  const Unsupported: string := "Sistema operacional não suportado"

  function PrintError(cause: string): string {
    "Erro ao imprimir: " + cause
  }

  /**
   * `printToASK400`: a missing image file fails first; on Windows, Linux and
   * macOS the request succeeds exactly when the platform's submission
   * succeeds (its error text is reported otherwise); any other system fails
   * as unsupported. The settings sent are always best quality, 100%, no
   * enhancement.
   */
  function PrintToASK400(imagePath: string, f: Format, printerName: string, copies: int,
                         fileExists: bool, platform: Platform, submission: Result<(), string>): (r: PrintResult)
    ensures r.success <==> fileExists && Supported(platform) && submission.Ok?
    ensures !fileExists ==> r.message == FileMissing
    ensures fileExists && !Supported(platform) ==> r.message == Unsupported
    ensures fileExists && Supported(platform) && submission.Err? ==> r.message == PrintError(submission.error)
    ensures r.success ==> r.message == "Impressão enviada para " + printerName
  {
    if !fileExists then PrintResult(false, FileMissing)
    else if !Supported(platform) then PrintResult(false, Unsupported)
    else match submission
      case Ok(_) => PrintResult(true, "Impressão enviada para " + printerName)
      case Err(e) => PrintResult(false, PrintError(e))
  }

  /** The settings `printToASK400` builds for a request always pass validation when a printer is named. */
  function RequestSettings(f: Format, printerName: string, copies: int): (s: Settings)
    ensures printerName != "" ==> ValidateSettings(AsPartial(s)).valid
    ensures s.format == f && s.printerName == printerName && s.copies == copies && s.quality == Best
  {
    Settings(printerName, f, copies, Best, 100, false)
  }

  /** The paper the geometry module reports for a format is the one the driver loads. */
  lemma PrintInfoAgreesWithDriver(f: Format)
    ensures Geometry.GetPrintInfo(f).paperSize == PaperSize(f)
    ensures Geometry.GetPrintInfo(f).driverSettings.paperSize == PaperSize(f) + " inches"
  {
  }
}

=== FILE: printermanager.dfy ===
/**
 * Printer discovery and plain file printing (server/printerManager.ts): the
 * parser of `lpstat -p -d` output used on Linux and on macOS, the
 * normalisation of the PowerShell printer list on Windows, the printer test,
 * and the `lp` command used to print a file. Running the commands is an
 * operating-system effect; their output (or failure) is an input.
 */
module PrinterManager {
  import opened Results
  import Text
  import opened Platforms

  /** A printer as listed by the server; `model` is only reported on Windows. */
  datatype Printer = Printer(name: string, isDefault: bool, status: string, model: Option<string>)

  const Keyword: string := "printer "

  /** The pattern `printer ([\w-]+)` can match starting at position `i`. */
  predicate MatchesAt(line: string, i: int) {
    0 <= i && i + 9 <= |line| && line[i..i + 8] == Keyword && Text.IsWordChar(line[i + 8])
  }

  /** The longest prefix of `s` made of name characters (the greedy `[\w-]+`). */
  function NameRun(s: string): (r: string)
    ensures |r| <= |s| && r == s[..|r|]
    ensures Text.AllWordChars(r)
    ensures |r| == |s| || !Text.IsWordChar(s[|r|])
  {
    if |s| == 0 || !Text.IsWordChar(s[0]) then ""
    else [s[0]] + NameRun(s[1..])
  }

  /** The leftmost position at or after `from` where the pattern matches. */
  function FindMatch(line: string, from: nat): (r: Option<nat>)
    ensures r.Some? ==> from <= r.value && MatchesAt(line, r.value)
    ensures r.Some? ==> forall j :: from <= j < r.value ==> !MatchesAt(line, j)
    ensures r.None? ==> forall j :: from <= j ==> !MatchesAt(line, j)
    decreases |line| - from
  {
    if from + 9 > |line| then None
    else if MatchesAt(line, from) then Some(from)
    else FindMatch(line, from + 1)
  }

  /**
   * `line.match(/printer ([\w-]+)/)[1]`: the name after the leftmost
   * `printer ` that is followed by at least one name character, taken as
   * long as possible. The search is not anchored: it may start anywhere in
   * the line.
   */
  function MatchPrinterName(line: string): (r: Option<string>)
    ensures r.Some? <==> exists i :: MatchesAt(line, i)
    ensures r.Some? ==> |r.value| >= 1 && Text.AllWordChars(r.value)
    ensures r.Some? ==> exists i :: (&& MatchesAt(line, i)
                                   && (forall j :: 0 <= j < i ==> !MatchesAt(line, j))
                                   && r.value == NameRun(line[i + 8..]))
  {
    match FindMatch(line, 0)
    case Some(i) => Some(NameRun(line[i + 8..]))
    case None => None
  }

  /**
   * One line of `lpstat` output: only a line starting with `printer` whose
   * pattern matches gives an entry, named by the match, default when the
   * line contains `*`, always `Ready`.
   */
  function ParseLine(line: string): (r: Option<Printer>)
    ensures r.Some? ==> Text.StartsWith(line, "printer")
    ensures r.Some? <==> Text.StartsWith(line, "printer") && (exists i :: MatchesAt(line, i))
    ensures r.Some? ==> && |r.value.name| >= 1 && Text.AllWordChars(r.value.name)
                        && (r.value.isDefault <==> '*' in line)
                        && r.value.status == "Ready" && r.value.model.None?
  {
    if Text.StartsWith(line, "printer") then
      match MatchPrinterName(line)
      case Some(name) => Some(Printer(name, '*' in line, "Ready", None))
      case None => None
    else None
  }

  /** The loop body of the parsers, over the lines of the output in order. */
  function Entries(lines: seq<string>): (printers: seq<Printer>)
    ensures |printers| <= |lines|
    ensures forall p :: p in printers ==> exists k :: 0 <= k < |lines| && ParseLine(lines[k]) == Some(p)
  {
    if |lines| == 0 then []
    else
      var rest := Entries(lines[1..]);
      match ParseLine(lines[0])
      case Some(p) => [p] + rest
      case None => rest
  }

  /** The entries of a concatenation are the entries of each part, in order: one entry per line at most, line order kept. */
  lemma {:induction false} EntriesAppend(a: seq<string>, b: seq<string>)
    ensures Entries(a + b) == Entries(a) + Entries(b)
    decreases |a|
  {
    if |a| == 0 {
      assert a + b == b;
    } else {
      assert (a + b)[1..] == a[1..] + b;
      EntriesAppend(a[1..], b);
    }
  }

  /** A single line gives its own entry or none. */
  lemma EntriesOfOneLine(line: string)
    ensures Entries([line]) == (match ParseLine(line) case Some(p) => [p] case None => [])
  {
  }

  /**
   * `getPrintersLinux` and `getPrintersMac`: their parsing bodies are the
   * same text, so both are this function of the command's output, split at
   * newlines.
   */
  function ParseLpstat(stdout: string): (printers: seq<Printer>)
    ensures |printers| <= |Text.Split(stdout, '\n')|
    ensures forall p :: p in printers ==> p.status == "Ready" && |p.name| >= 1
  {
    Entries(Text.Split(stdout, '\n'))
  }

  /** A typical `lpstat` line names the printer, up to the first character outside `[\w-]`. */
  lemma LpstatPrinterLine()
    ensures ParseLine("printer ASK-400 is idle.") == Some(Printer("ASK-400", false, "Ready", None))
  {
    var l := "printer ASK-400 is idle.";
    assert ParseLine(l) == Some(Printer("ASK-400", '*' in l, "Ready", None)) by {
      assert Text.StartsWith(l, "printer");
      MatchInPrinterLine();
    }
    assert '*' !in l by { NoStar(l); }
  }

  lemma NoStar(l: string)
    requires l == "printer ASK-400 is idle."
    ensures '*' !in l
  {
  }

  lemma MatchInPrinterLine()
    ensures MatchPrinterName("printer ASK-400 is idle.") == Some("ASK-400")
  {
    var l := "printer ASK-400 is idle.";
    assert FindMatch(l, 0) == Some(0) by { assert l[0..8] == Keyword; }
    assert NameRun(l[8..]) == "ASK-400" by {
      assert l[8..] == "ASK-400" + " is idle.";
      NameRunStopsAtSpace("ASK-400", " is idle.");
    }
  }

  /** The greedy run takes a whole name followed by a space. */
  lemma {:induction false} NameRunStopsAtSpace(name: string, rest: string)
    requires Text.AllWordChars(name) && |rest| > 0 && rest[0] == ' '
    ensures NameRun(name + rest) == name
    decreases |name|
  {
    if |name| == 0 {
      assert name + rest == rest;
    } else {
      assert (name + rest)[1..] == name[1..] + rest;
      NameRunStopsAtSpace(name[1..], rest);
    }
  }

  /** The search is not anchored: a line starting with `printers` is still searched for a later `printer `. */
  lemma LpstatSearchUnanchored()
    ensures ParseLine("printers printer X") == Some(Printer("X", false, "Ready", None))
  {
    var l := "printers printer X";
    assert Text.StartsWith(l, "printer");
    assert l[9..17] == Keyword;
    assert !MatchesAt(l, 0) by { assert l[0..8][7] == l[7]; }
    assert FindMatch(l, 9) == Some(9);
    assert FindMatch(l, 0) == Some(9);
    assert l[17..] == "X";
    assert NameRun("X") == "X" by { assert "X"[1..] == ""; }
    assert '*' !in l;
  }

  /** The default-destination line of `lpstat -d` does not start with `printer` and gives no entry. */
  lemma LpstatDefaultLineSkipped()
    ensures ParseLine("system default destination: ASK-400") == None
  {
    var l := "system default destination: ASK-400";
    assert !Text.StartsWith(l, "printer") by { assert l[0] == 's'; }
  }

  /** A JSON scalar as PowerShell's `ConvertTo-Json` may emit for a property. */
  datatype JsonScalar = JNull | JBool(b: bool) | JNumber(n: int) | JString(s: string)

  /** One printer object of the Windows listing; absent properties are `None`. */
  datatype WinPrinter = WinPrinter(name: string, defaultFlag: Option<JsonScalar>, model: Option<string>)

  /** `ConvertTo-Json` emits a bare object for a single printer and an array otherwise. */
  datatype WinListing = Single(printer: WinPrinter) | List(printers: seq<WinPrinter>)

  function AsList(w: WinListing): seq<WinPrinter> {
    match w
    case Single(p) => [p]
    case List(ps) => ps
  }

  /** `p.Model || 'Unknown'`. */
  function ModelOrUnknown(m: Option<string>): (r: string)
    ensures r != ""
    ensures (m.Some? && m.value != "") ==> r == m.value
  {
    match m
    case Some(v) => if v != "" then v else "Unknown"
    case None => "Unknown"
  }

  /**
   * `getPrintersWindows`: a single object becomes a one-element list; each
   * entry keeps its name, is default only when `Default` is exactly `true`,
   * is `Ready`, and has its model or `Unknown`.
   */
  function NormaliseWindows(w: WinListing): (printers: seq<Printer>)
    ensures |printers| == |AsList(w)|
    ensures w.Single? ==> |printers| == 1
    ensures forall k :: 0 <= k < |printers| ==>
      && printers[k].name == AsList(w)[k].name
      && (printers[k].isDefault <==> AsList(w)[k].defaultFlag == Some(JBool(true)))
      && printers[k].status == "Ready"
      && printers[k].model == Some(ModelOrUnknown(AsList(w)[k].model))
  {
    var ps := AsList(w);
    seq(|ps|, k requires 0 <= k < |ps| =>
      Printer(ps[k].name, ps[k].defaultFlag == Some(JBool(true)), "Ready", Some(ModelOrUnknown(ps[k].model))))
  }

  /** A bare object is normalised exactly as the one-element array it is wrapped into. */
  lemma SingleListingIsOneElementList(p: WinPrinter)
    ensures NormaliseWindows(Single(p)) == NormaliseWindows(List([p]))
    ensures |NormaliseWindows(Single(p))| == 1 && NormaliseWindows(Single(p))[0].name == p.name
  {
  }

  /**
   * `getPrinters`: the platform's listing, or no printers when the command
   * (or the JSON parse) failed or the platform is not supported. `None`
   * stands for a failed command.
   */
  function GetPrinters(platform: Platform, lpstat: Option<string>, windows: Option<WinListing>): (printers: seq<Printer>)
    ensures platform.OtherPlatform? ==> printers == []
    ensures (platform.Linux? || platform.Darwin?) ==>
      printers == (if lpstat.Some? then ParseLpstat(lpstat.value) else [])
    ensures platform.Win32? ==>
      printers == (if windows.Some? then NormaliseWindows(windows.value) else [])
  {
    match platform
    case Win32 => if windows.Some? then NormaliseWindows(windows.value) else []
    case Linux => if lpstat.Some? then ParseLpstat(lpstat.value) else []
    case Darwin => if lpstat.Some? then ParseLpstat(lpstat.value) else []
    case OtherPlatform => []
  }

  /** `testPrinter`: some listed printer has exactly the given name. */
  function TestPrinter(printers: seq<Printer>, name: string): (found: bool)
    ensures found <==> exists k :: 0 <= k < |printers| && printers[k].name == name
  {
    if |printers| == 0 then false
    else printers[0].name == name || TestPrinter(printers[1..], name)
  }

  /** Line `line` of `lpstat` output gives a printer called `name`. */
  predicate LineNames(line: string, name: string) {
    ParseLine(line).Some? && ParseLine(line).value.name == name
  }

  /** A printer is found in `lpstat` output exactly when some line of it parses to that name. */
  lemma {:induction false} TestPrinterOnLines(lines: seq<string>, name: string)
    ensures TestPrinter(Entries(lines), name) <==> exists k :: 0 <= k < |lines| && LineNames(lines[k], name)
    decreases |lines|
  {
    if |lines| > 0 {
      var tail := lines[1..];
      TestPrinterOnLines(tail, name);
      TestPrinterHead(lines, name);
      ShiftLines(lines, name);
    }
  }

  lemma TestPrinterHead(lines: seq<string>, name: string)
    requires |lines| > 0
    ensures TestPrinter(Entries(lines), name) <==> LineNames(lines[0], name) || TestPrinter(Entries(lines[1..]), name)
  {
    var rest := Entries(lines[1..]);
    if ParseLine(lines[0]).Some? {
      var p := ParseLine(lines[0]).value;
      assert Entries(lines) == [p] + rest;
      assert ([p] + rest)[1..] == rest;
    }
  }

  lemma ShiftLines(lines: seq<string>, name: string)
    requires |lines| > 0
    ensures (exists k :: 0 <= k < |lines| && LineNames(lines[k], name))
        <==> LineNames(lines[0], name) || (exists k :: 0 <= k < |lines[1..]| && LineNames(lines[1..][k], name))
  {
    if exists k :: 0 <= k < |lines| && LineNames(lines[k], name) {
      var k :| 0 <= k < |lines| && LineNames(lines[k], name);
      if k > 0 { assert lines[1..][k - 1] == lines[k]; }
    }
    if exists k :: 0 <= k < |lines[1..]| && LineNames(lines[1..][k], name) {
      var k :| 0 <= k < |lines[1..]| && LineNames(lines[1..][k], name);
      assert lines[k + 1] == lines[1..][k];
    }
  }

  /** On Windows a printer is found exactly when the PowerShell listing has an entry of that name. */
  lemma TestPrinterOnListing(w: WinListing, name: string)
    ensures TestPrinter(NormaliseWindows(w), name) <==> exists k :: 0 <= k < |AsList(w)| && AsList(w)[k].name == name
  {
    var printers := NormaliseWindows(w);
    if TestPrinter(printers, name) {
      var k :| 0 <= k < |printers| && printers[k].name == name;
      assert AsList(w)[k].name == name;
    }
    if exists k :: 0 <= k < |AsList(w)| && AsList(w)[k].name == name {
      var k :| 0 <= k < |AsList(w)| && AsList(w)[k].name == name;
      assert printers[k].name == name;
    }
  }

  /**
   * `testPrinter` over `getPrinters`: on Linux and macOS a printer is found
   * exactly when some line of the `lpstat` output parses to its name, on
   * Windows exactly when the listing has an entry of that name, and never
   * when the command failed or the platform is not supported.
   */
  lemma TestPrinterOnPlatform(platform: Platform, lpstat: Option<string>, windows: Option<WinListing>, name: string)
    ensures (platform.Linux? || platform.Darwin?) ==>
      (TestPrinter(GetPrinters(platform, lpstat, windows), name) <==>
        lpstat.Some? && exists k :: 0 <= k < |Text.Split(lpstat.value, '\n')| && LineNames(Text.Split(lpstat.value, '\n')[k], name))
    ensures platform.Win32? ==>
      (TestPrinter(GetPrinters(platform, lpstat, windows), name) <==>
        windows.Some? && exists k :: 0 <= k < |AsList(windows.value)| && AsList(windows.value)[k].name == name)
    ensures platform.OtherPlatform? ==> !TestPrinter(GetPrinters(platform, lpstat, windows), name)
  {
    match platform
    case Win32 =>
      if windows.Some? { TestPrinterOnListing(windows.value, name); }
    case OtherPlatform =>
    case _ =>
      if lpstat.Some? { TestPrinterOnLpstat(lpstat.value, Text.Split(lpstat.value, '\n'), name); }
  }

  lemma TestPrinterOnLpstat(output: string, lines: seq<string>, name: string)
    requires lines == Text.Split(output, '\n')
    ensures TestPrinter(ParseLpstat(output), name) <==>
      exists k :: 0 <= k < |lines| && LineNames(lines[k], name)
  {
    TestPrinterOnLines(lines, name);
  }


  /** `printFileUnix`: the command printing a file on Linux and macOS. */
  function UnixPrintCommand(filePath: string, printerName: string, copies: int): string {
    "lp -d " + printerName + " -n " + Text.IntToString(copies) + " \"" + filePath + "\""
  }

  /** The print command is its six words joined by single spaces. */
  lemma UnixPrintCommandIsWords(filePath: string, printerName: string, copies: nat)
    ensures UnixPrintCommand(filePath, printerName, copies)
      == Text.Words(["lp", "-d", printerName, "-n", Text.NatToString(copies), "\"" + filePath + "\""])
  {
    var ws := ["lp", "-d", printerName, "-n", Text.NatToString(copies), "\"" + filePath + "\""];
    assert ws[..2][..1] == ws[..1];
    assert Text.Words(ws[..2]) == "lp -d";
    assert ws[..3][..2] == ws[..2];
    assert Text.Words(ws[..3]) == "lp -d " + printerName;
    assert ws[..4][..3] == ws[..3];
    assert Text.Words(ws[..4]) == "lp -d " + printerName + " -n";
    assert ws[..5][..4] == ws[..4];
    assert Text.Words(ws[..5]) == "lp -d " + printerName + " -n " + Text.NatToString(copies);
    assert ws[..6][..5] == ws[..5];
    assert ws[..6] == ws;
  }

  /** With no space in printer name or path, the shell sees exactly `lp -d <printer> -n <copies> "<path>"`. */
  lemma UnixPrintCommandWords(filePath: string, printerName: string, copies: nat)
    requires ' ' !in printerName && ' ' !in filePath
    ensures Text.Split(UnixPrintCommand(filePath, printerName, copies), ' ')
      == ["lp", "-d", printerName, "-n", Text.NatToString(copies), "\"" + filePath + "\""]
  {
    var ws := ["lp", "-d", printerName, "-n", Text.NatToString(copies), "\"" + filePath + "\""];
    UnixPrintCommandIsWords(filePath, printerName, copies);
    assert ' ' !in ws[4] by { assert Text.AllDigits(ws[4]); }
    assert ' ' !in ws[5] by { assert ws[5] == "\"" + filePath + "\""; }
    Text.SplitWords(ws);
  }

  datatype PrintResult = PrintResult(success: bool, message: string)

  /**
   * `printFile`: a missing file fails first, then an unsupported platform;
   * otherwise the result is that of the platform's submission.
   */
  function PrintFile(printerName: string, fileExists: bool, platform: Platform, submission: Result<(), string>): (r: PrintResult)
    ensures r.success <==> fileExists && !platform.OtherPlatform? && submission.Ok?
    ensures !fileExists ==> r.message == "Arquivo não encontrado"
    ensures fileExists && platform.OtherPlatform? ==> r.message == "Sistema operacional não suportado"
    ensures fileExists && !platform.OtherPlatform? && submission.Err? ==> r.message == "Erro ao imprimir: " + submission.error
    ensures r.success ==> r.message == "Impressão iniciada em " + printerName
  {
    if !fileExists then PrintResult(false, "Arquivo não encontrado")
    else if platform.OtherPlatform? then PrintResult(false, "Sistema operacional não suportado")
    else match submission
      case Ok(_) => PrintResult(true, "Impressão iniciada em " + printerName)
      case Err(e) => PrintResult(false, "Erro ao imprimir: " + e)
  }
}

=== FILE: printqueue.dfy ===
/**
 * The serialized print queue with its watchdog (server/printQueue.ts).
 *
 * The queue object's fields (pending FIFO, `isProcessing` flag, `currentJob`)
 * become an immutable record, and everything that happens to it becomes a
 * discrete step: a job is added, a timer calls `processNext`, the outstanding
 * print call settles (success or error), the watchdog timer fires, a job is
 * cancelled, the queue is paused, resumed or cleared. Timing and the simulated
 * printer's randomness are the choice of which step comes next. `inFlight`
 * counts print calls whose continuation has not yet run; it is not a field of
 * the source but makes its serialization (at most one call at a time)
 * something that can be stated. Emitted events are kept as a log, each with a
 * snapshot of the job at the moment of emission.
 */
module PrintQueue {
  import opened Results
  import opened Formats

  datatype JobStatus = Pending | Printing | Completed | Failed

  /** A print job. Its image buffer is opaque and not modelled; times are milliseconds. */
  datatype PrintJob = PrintJob(
    id: string,
    orderNumber: string,
    format: Format,
    printerName: string,
    copies: int,
    createdAt: int,
    status: JobStatus,
    error: Option<string>,
    startedAt: Option<int>,
    completedAt: Option<int>)

  datatype Event =
    | JobAdded(job: PrintJob)
    | JobStarted(job: PrintJob)
    | JobCompleted(job: PrintJob)
    | JobFailed(job: PrintJob)
    | WatchdogTimeout(job: PrintJob)
    | JobCancelled(job: PrintJob)
    | Paused
    | Resumed
      /** A print call settled after `currentJob` was cleared: the continuation's own TypeError escapes. */
    | ContinuationThrew

  datatype Queue = Queue(
    pending: seq<PrintJob>,
    isProcessing: bool,
    current: Option<PrintJob>,
    inFlight: nat,
    events: seq<Event>)

  /** How the printer call of the current job settles. */
  datatype PrintOutcome = Printed | PrintError(message: string)

  const WatchdogMessage: string := "Watchdog timeout: impressora não respondeu"

  /** The queue as constructed: empty, idle, no current job. */
  function Initial(): Queue {
    Queue([], false, None, 0, [])
  }

  /**
   * `processNext` up to the print call: nothing happens while the queue is
   * processing (or paused) or empty; otherwise the head job leaves the
   * pending list, becomes the current job, unchanged except for state
   * `printing` and its start time, the flag is raised and one more print call is outstanding.
   */
  function ProcessNext(q: Queue, now: int): (r: Queue)
    ensures (q.isProcessing || |q.pending| == 0) ==> r == q
    ensures !q.isProcessing && |q.pending| > 0 ==>
      && r.isProcessing
      && r.pending == q.pending[1..]
      && r.current == Some(q.pending[0].(status := Printing, startedAt := Some(now)))
      && r.inFlight == q.inFlight + 1
      && r.events == q.events + [JobStarted(r.current.value)]
  {
    if q.isProcessing || |q.pending| == 0 then q
    else
      var job := q.pending[0].(status := Printing, startedAt := Some(now));
      Queue(q.pending[1..], true, Some(job), q.inFlight + 1, q.events + [JobStarted(job)])
  }

  /**
   * `addJob`: the job joins the tail of the pending list, after every job
   * already waiting, and is announced; if the queue is not processing, the
   * head of the extended list (the new job itself when none was waiting)
   * starts at once, keeping every field but its status and start time.
   */
  function AddJob(q: Queue, job: PrintJob, now: int): (r: Queue)
    ensures |r.events| > |q.events| && r.events[..|q.events| + 1] == q.events + [JobAdded(job)]
    ensures q.isProcessing ==> r.pending == q.pending + [job] && r.current == q.current && r.inFlight == q.inFlight
    ensures !q.isProcessing ==>
      && r.pending == (q.pending + [job])[1..]
      && r.current == Some((q.pending + [job])[0].(status := Printing, startedAt := Some(now)))
      && r.inFlight == q.inFlight + 1
  {
    var added := q.(pending := q.pending + [job], events := q.events + [JobAdded(job)]);
    if q.isProcessing then added else ProcessNext(added, now)
  }

  /**
   * The job record once its print call has settled with `outcome` at time
   * `now`: only the status, the error and the completion time change.
   */
  function Settle(job: PrintJob, outcome: PrintOutcome, now: int): (done: PrintJob)
    ensures done == job.(status := done.status, error := done.error, completedAt := Some(now))
    ensures outcome.Printed? ==> done.status == Completed && done.error == job.error
    ensures outcome.PrintError? ==> done.status == Failed && done.error == Some(outcome.message)
  {
    match outcome
    case Printed => job.(status := Completed, completedAt := Some(now))
    case PrintError(msg) => job.(status := Failed, error := Some(msg), completedAt := Some(now))
  }

  /** The event announcing a settled job. */
  function SettledEvent(done: PrintJob): Event {
    if done.status == Completed then JobCompleted(done) else JobFailed(done)
  }

  /**
   * The continuation of `processNext` after the print call settles: the
   * current job is marked completed on success (an earlier watchdog error is
   * kept) or failed with the error on failure; then, in every case, the flag
   * is lowered and there is no current job. If the current job was already
   * gone, the continuation throws instead of recording anything.
   */
  function Finish(q: Queue, outcome: PrintOutcome, now: int): (r: Queue)
    requires q.inFlight > 0
    ensures !r.isProcessing && r.current.None? && r.pending == q.pending && r.inFlight == q.inFlight - 1
    ensures q.current.Some? ==> r.events == q.events + [SettledEvent(Settle(q.current.value, outcome, now))]
    ensures q.current.None? ==> r.events == q.events + [ContinuationThrew]
  {
    var event := match q.current
      case Some(job) => SettledEvent(Settle(job, outcome, now))
      case None => ContinuationThrew;
    Queue(q.pending, false, None, q.inFlight - 1, q.events + [event])
  }

  /**
   * The watchdog timer: only a current job still `printing` is marked failed
   * with the watchdog message; the flag, the current job and the outstanding
   * print call are left alone, so the queue keeps waiting for that call.
   */
  function WatchdogFires(q: Queue): (r: Queue)
    ensures r.pending == q.pending && r.isProcessing == q.isProcessing && r.inFlight == q.inFlight
    ensures (q.current.Some? && q.current.value.status == Printing) ==>
      && r.current == Some(q.current.value.(status := Failed, error := Some(WatchdogMessage)))
      && r.events == q.events + [WatchdogTimeout(q.current.value)]
    ensures !(q.current.Some? && q.current.value.status == Printing) ==> r == q
  {
    match q.current
    case Some(job) =>
      if job.status == Printing then
        q.(current := Some(job.(status := Failed, error := Some(WatchdogMessage))),
           events := q.events + [WatchdogTimeout(job)])
      else q
    case None => q
  }

  /** `findIndex` on job ids: the first pending position holding `id`, if any. */
  function FindJob(jobs: seq<PrintJob>, id: string): Option<nat> {
    FindIndex(jobs, (j: PrintJob) => j.id == id)
  }

  predicate HasPending(q: Queue, id: string) {
    exists k :: 0 <= k < |q.pending| && q.pending[k].id == id
  }

  /**
   * `cancelJob`: the first pending job with the id is removed and `true` is
   * returned; an id not pending gives `false` and no change. The current job
   * is never touched: it has already left the pending list.
   */
  function CancelJob(q: Queue, id: string): (r: (Queue, bool))
    ensures r.1 <==> HasPending(q, id)
    ensures !r.1 ==> r.0 == q
    ensures r.1 ==> exists k :: (&& 0 <= k < |q.pending| && q.pending[k].id == id
                                 && (forall j :: 0 <= j < k ==> q.pending[j].id != id)
                                 && r.0.pending == q.pending[..k] + q.pending[k + 1..]
                                 && r.0.events == q.events + [JobCancelled(q.pending[k])])
    ensures r.0.current == q.current && r.0.isProcessing == q.isProcessing && r.0.inFlight == q.inFlight
  {
    match FindJob(q.pending, id)
    case Some(k) =>
      (q.(pending := q.pending[..k] + q.pending[k + 1..], events := q.events + [JobCancelled(q.pending[k])]), true)
    case None => (q, false)
  }

  /** `pause`: raises the flag, so no new job can start until it is lowered. */
  function Pause(q: Queue): (r: Queue)
    ensures r.isProcessing && r.pending == q.pending && r.current == q.current && r.inFlight == q.inFlight
    ensures r.events == q.events + [Paused]
  {
    q.(isProcessing := true, events := q.events + [Paused])
  }

  /**
   * `resume` as written: logs `Resumed`, lowers the flag and starts the
   * head job, replacing the current one even while its print call is still
   * outstanding.
   */
  function Resume(q: Queue, now: int): (r: Queue)
    ensures |q.pending| == 0 ==> !r.isProcessing && r.current == q.current && r.inFlight == q.inFlight
    ensures |q.pending| == 0 ==> r.events == q.events + [Resumed]
    ensures |q.pending| > 0 ==> r.isProcessing && r.inFlight == q.inFlight + 1 && r.pending == q.pending[1..]
    ensures |q.pending| > 0 ==>
      && r.current == Some(q.pending[0].(status := Printing, startedAt := Some(now)))
      && r.events == q.events + [Resumed, JobStarted(r.current.value)]
  {
    ProcessNext(q.(isProcessing := false, events := q.events + [Resumed]), now)
  }

  /**
   * The intended `resume`: a pause is lifted and the runner restarted only
   * when no print call is outstanding; during a print the running job's own
   * continuation lowers the flag.
   */
  function ResumeFixed(q: Queue, now: int): (r: Queue)
    ensures q.inFlight > 0 ==> r == q.(events := q.events + [Resumed])
    ensures q.inFlight == 0 ==> r == Resume(q, now)
  {
    if q.inFlight > 0 then q.(events := q.events + [Resumed])
    else Resume(q, now)
  }

  /** `clear`: drops every pending job; the current job and the flag are untouched. */
  function Clear(q: Queue): (r: Queue)
    ensures r.pending == [] && r.current == q.current && r.isProcessing == q.isProcessing
    ensures r.inFlight == q.inFlight && r.events == q.events
  {
    q.(pending := [])
  }

  datatype Status = Status(isProcessing: bool, queueLength: nat, currentJob: Option<PrintJob>, jobs: seq<PrintJob>)

  function CurrentAsSeq(current: Option<PrintJob>): seq<PrintJob> {
    match current
    case Some(j) => [j]
    case None => []
  }

  /** `getStatus`: the flag, the pending count, the current job, and the pending jobs followed by the current one. */
  function GetStatus(q: Queue): (s: Status)
    ensures s.queueLength == |q.pending| && s.isProcessing == q.isProcessing && s.currentJob == q.current
    ensures |s.jobs| == |q.pending| + (if q.current.Some? then 1 else 0)
    ensures s.jobs[..|q.pending|] == q.pending
    ensures q.current.Some? ==> s.jobs[|q.pending|] == q.current.value
  {
    Status(q.isProcessing, |q.pending|, q.current, q.pending + CurrentAsSeq(q.current))
  }

  /** The condition `waitForCompletion` polls for: not processing and nothing pending. */
  predicate Drained(q: Queue) {
    !q.isProcessing && |q.pending| == 0
  }

  /** Everything that can happen to the queue. */
  datatype Step =
    | Add(job: PrintJob, now: int)
    | Tick(now: int)                      // a timer calls processNext (the cooldown after a job)
    | Settled(outcome: PrintOutcome, now: int)  // the outstanding print call resolves or rejects
    | Watchdog
    | Cancel(id: string)
    | PauseStep
    | ResumeStep(now: int)
    | ClearStep

  /** One step of the queue as written. A settle with no outstanding call cannot happen and changes nothing. */
  function Apply(q: Queue, s: Step): Queue {
    match s
    case Add(job, now) => AddJob(q, job, now)
    case Tick(now) => ProcessNext(q, now)
    case Settled(outcome, now) => if q.inFlight > 0 then Finish(q, outcome, now) else q
    case Watchdog => WatchdogFires(q)
    case Cancel(id) => CancelJob(q, id).0
    case PauseStep => Pause(q)
    case ResumeStep(now) => Resume(q, now)
    case ClearStep => Clear(q)
  }

  /** One step of the queue with the intended `resume`. */
  function ApplyFixed(q: Queue, s: Step): Queue {
    match s
    case ResumeStep(now) => ResumeFixed(q, now)
    case _ => Apply(q, s)
  }

  function Run(q: Queue, steps: seq<Step>): Queue
    decreases |steps|
  {
    if |steps| == 0 then q else Run(Apply(q, steps[0]), steps[1..])
  }

  function RunFixed(q: Queue, steps: seq<Step>): Queue
    decreases |steps|
  {
    if |steps| == 0 then q else RunFixed(ApplyFixed(q, steps[0]), steps[1..])
  }

  /**
   * The queue's invariant: waiting jobs are `pending`; exactly one print call
   * is outstanding when there is a current job and none otherwise; a current
   * job has started, holds the flag, and is `printing` (or `failed`, once the
   * watchdog has fired).
   */
  ghost predicate Valid(q: Queue) {
    && (forall k :: 0 <= k < |q.pending| ==> q.pending[k].status == Pending)
    && q.inFlight == (if q.current.Some? then 1 else 0)
    && (q.current.Some? ==>
          && q.isProcessing
          && q.current.value.startedAt.Some?
          && q.current.value.status in {Printing, Failed})
  }

  predicate AddsPendingOnly(steps: seq<Step>) {
    forall k :: 0 <= k < |steps| && steps[k].Add? ==> steps[k].job.status == Pending
  }

  /** Every step, with the intended `resume`, keeps the invariant when added jobs are pending. */
  lemma StepKeepsValid(q: Queue, s: Step)
    requires Valid(q)
    requires s.Add? ==> s.job.status == Pending
    ensures Valid(ApplyFixed(q, s))
  {
    match s
    case Add(job, now) => AddKeepsValid(q, job, now);
    case Tick(now) => ProcessNextKeepsValid(q, now);
    case Settled(outcome, now) => SettledKeepsValid(q, outcome, now);
    case Cancel(id) => CancelKeepsValid(q, id);
    case ResumeStep(now) => ResumeFixedKeepsValid(q, now);
    case _ =>
  }

  lemma AddKeepsValid(q: Queue, job: PrintJob, now: int)
    requires Valid(q) && job.status == Pending
    ensures Valid(AddJob(q, job, now))
  {
    var added := q.(pending := q.pending + [job], events := q.events + [JobAdded(job)]);
    assert Valid(added);
    ProcessNextKeepsValid(added, now);
  }

  lemma ProcessNextKeepsValid(q: Queue, now: int)
    requires Valid(q)
    ensures Valid(ProcessNext(q, now))
  {
  }

  lemma ResumeFixedKeepsValid(q: Queue, now: int)
    requires Valid(q)
    ensures Valid(ResumeFixed(q, now))
  {
    if q.inFlight == 0 {
      ProcessNextKeepsValid(q.(isProcessing := false, events := q.events + [Resumed]), now);
    }
  }

  lemma SettledKeepsValid(q: Queue, outcome: PrintOutcome, now: int)
    requires Valid(q)
    ensures Valid(if q.inFlight > 0 then Finish(q, outcome, now) else q)
  {
  }

  lemma CancelKeepsValid(q: Queue, id: string)
    requires Valid(q)
    ensures Valid(CancelJob(q, id).0)
  {
    var r := CancelJob(q, id);
    if r.1 {
      var k :| 0 <= k < |q.pending| && r.0.pending == q.pending[..k] + q.pending[k + 1..];
      assert forall j :: 0 <= j < |r.0.pending| ==> r.0.pending[j] in q.pending;
    }
  }

  /** Runs of the queue with the intended `resume` keep the invariant. */
  lemma {:induction false} RunKeepsValid(q: Queue, steps: seq<Step>)
    requires Valid(q)
    requires AddsPendingOnly(steps)
    ensures Valid(RunFixed(q, steps))
    decreases |steps|
  {
    if |steps| > 0 {
      StepKeepsValid(q, steps[0]);
      assert AddsPendingOnly(steps[1..]) by {
        forall k | 0 <= k < |steps[1..]| && steps[1..][k].Add?
          ensures steps[1..][k].job.status == Pending
        {
          assert steps[1..][k] == steps[k + 1];
        }
      }
      RunKeepsValid(ApplyFixed(q, steps[0]), steps[1..]);
    }
  }

  function CountPrinting(jobs: seq<PrintJob>): nat {
    if |jobs| == 0 then 0
    else (if jobs[0].status == Printing then 1 else 0) + CountPrinting(jobs[1..])
  }

  lemma {:induction false} CountPrintingAppend(a: seq<PrintJob>, b: seq<PrintJob>)
    ensures CountPrinting(a + b) == CountPrinting(a) + CountPrinting(b)
    decreases |a|
  {
    if |a| == 0 {
      assert a + b == b;
    } else {
      assert (a + b)[1..] == a[1..] + b;
      CountPrintingAppend(a[1..], b);
    }
  }

  lemma {:induction false} NoPrintingAmongPending(jobs: seq<PrintJob>)
    requires forall k :: 0 <= k < |jobs| ==> jobs[k].status == Pending
    ensures CountPrinting(jobs) == 0
    decreases |jobs|
  {
    if |jobs| > 0 {
      NoPrintingAmongPending(jobs[1..]);
    }
  }

  /**
   * Serialization: in every state reached from the empty queue by adding
   * pending jobs (with the intended `resume`), at most one print call is
   * outstanding and at most one job reported by `getStatus` is printing.
   */
  lemma AtMostOnePrinting(steps: seq<Step>)
    requires AddsPendingOnly(steps)
    ensures RunFixed(Initial(), steps).inFlight <= 1
    ensures CountPrinting(GetStatus(RunFixed(Initial(), steps)).jobs) <= 1
  {
    var q := RunFixed(Initial(), steps);
    RunKeepsValid(Initial(), steps);
    CountPrintingAppend(q.pending, CurrentAsSeq(q.current));
    NoPrintingAmongPending(q.pending);
    if q.current.Some? {
      assert CountPrinting([q.current.value]) <= 1;
    }
  }

  /** In a valid state the condition `waitForCompletion` waits for means no print call is outstanding. */
  lemma DrainedMeansIdle(q: Queue)
    requires Valid(q) && Drained(q)
    ensures q.current.None? && q.inFlight == 0
    ensures GetStatus(q).jobs == []
  {
  }

  /** Only a queue that is idle and empty counts as drained; any pending job or running print keeps it waiting. */
  lemma WaitingWhileBusy(q: Queue)
    requires Valid(q)
    requires |q.pending| > 0 || q.current.Some?
    ensures !Drained(q)
  {
  }

  /** A valid queue cannot cancel its current job: with unique ids, the current id is not pending. */
  lemma CancelMissesCurrent(q: Queue)
    requires Valid(q) && q.current.Some?
    requires forall k :: 0 <= k < |q.pending| ==> q.pending[k].id != q.current.value.id
    ensures CancelJob(q, q.current.value.id) == (q, false)
  {
  }

  predicate NoneWithId(jobs: seq<PrintJob>, id: string) {
    forall k :: 0 <= k < |jobs| ==> jobs[k].id != id
  }

  /** No job with the given id is waiting or current. */
  predicate Absent(q: Queue, id: string) {
    && NoneWithId(q.pending, id)
    && (q.current.Some? ==> q.current.value.id != id)
  }

  predicate NeverAdds(steps: seq<Step>, id: string) {
    forall k :: 0 <= k < |steps| && steps[k].Add? ==> steps[k].job.id != id
  }

  predicate NoStartOf(events: seq<Event>, id: string) {
    forall k :: 0 <= k < |events| && events[k].JobStarted? ==> events[k].job.id != id
  }

  /** The events a step appends to the log. */
  ghost predicate AppendsWithoutStart(before: seq<Event>, after: seq<Event>, id: string) {
    |after| >= |before| && after[..|before|] == before && NoStartOf(after[|before|..], id)
  }

  lemma AppendOne(events: seq<Event>, e: Event, id: string)
    requires !(e.JobStarted? && e.job.id == id)
    ensures AppendsWithoutStart(events, events + [e], id)
  {
    assert (events + [e])[|events|..] == [e];
  }

  lemma ProcessNextKeepsAbsent(q: Queue, now: int, id: string)
    requires Absent(q, id)
    ensures Absent(ProcessNext(q, now), id)
    ensures AppendsWithoutStart(q.events, ProcessNext(q, now).events, id)
  {
    var r := ProcessNext(q, now);
    if !q.isProcessing && |q.pending| > 0 {
      AppendOne(q.events, JobStarted(r.current.value), id);
    } else {
      assert q.events[|q.events|..] == [];
    }
  }

  lemma AddKeepsAbsent(q: Queue, job: PrintJob, now: int, id: string)
    requires Absent(q, id) && job.id != id
    ensures Absent(AddJob(q, job, now), id)
    ensures AppendsWithoutStart(q.events, AddJob(q, job, now).events, id)
  {
    var added := q.(pending := q.pending + [job], events := q.events + [JobAdded(job)]);
    assert Absent(added, id);
    AppendOne(q.events, JobAdded(job), id);
    ProcessNextKeepsAbsent(added, now, id);
    var r := AddJob(q, job, now);
    assert r.events[|q.events|..] == [JobAdded(job)] + r.events[|added.events|..];
  }

  /** Removing one element keeps every remaining element's property. */
  lemma RemoveKeepsIds(jobs: seq<PrintJob>, k: nat, id: string)
    requires k < |jobs|
    requires NoneWithId(jobs, id)
    ensures NoneWithId(jobs[..k] + jobs[k + 1..], id)
  {
    var p := jobs[..k] + jobs[k + 1..];
    forall j | 0 <= j < |p|
      ensures p[j].id != id
    {
      if j < k {
        assert p[j] == jobs[j];
      } else {
        assert p[j] == jobs[j + 1];
      }
    }
  }

  lemma CancelKeepsAbsent(q: Queue, i: string, id: string)
    requires Absent(q, id)
    ensures Absent(CancelJob(q, i).0, id)
    ensures AppendsWithoutStart(q.events, CancelJob(q, i).0.events, id)
  {
    match FindJob(q.pending, i)
    case Some(k) =>
      RemoveKeepsIds(q.pending, k, id);
      AppendOne(q.events, JobCancelled(q.pending[k]), id);
    case None =>
      assert q.events[|q.events|..] == [];
  }

  lemma StepKeepsAbsent(q: Queue, s: Step, id: string)
    requires Absent(q, id)
    requires s.Add? ==> s.job.id != id
    ensures Absent(Apply(q, s), id)
    ensures AppendsWithoutStart(q.events, Apply(q, s).events, id)
  {
    match s
    case Add(job, now) => AddKeepsAbsent(q, job, now, id);
    case Tick(now) => ProcessNextKeepsAbsent(q, now, id);
    case Settled(outcome, now) =>
      if q.inFlight > 0 {
        var r := Finish(q, outcome, now);
        AppendOne(q.events, r.events[|r.events| - 1], id);
      } else {
        assert q.events[|q.events|..] == [];
      }
    case Watchdog =>
      if q.current.Some? && q.current.value.status == Printing {
        AppendOne(q.events, WatchdogTimeout(q.current.value), id);
      } else {
        assert q.events[|q.events|..] == [];
      }
    case Cancel(i) => CancelKeepsAbsent(q, i, id);
    case PauseStep => AppendOne(q.events, Paused, id);
    case ResumeStep(now) =>
      var resumed := q.(isProcessing := false, events := q.events + [Resumed]);
      AppendOne(q.events, Resumed, id);
      ProcessNextKeepsAbsent(resumed, now, id);
      var r := Resume(q, now);
      assert r.events[|q.events|..] == [Resumed] + r.events[|resumed.events|..];
    case ClearStep => assert q.events[|q.events|..] == [];
  }

  /**
   * A job that is neither waiting nor current (a cancelled one, say) is never
   * started again unless a job with its id is added anew: no later step
   * emits a start for its id.
   */
  lemma {:induction false} AbsentJobNeverStarts(q: Queue, steps: seq<Step>, id: string)
    requires Absent(q, id)
    requires NeverAdds(steps, id)
    ensures Absent(Run(q, steps), id)
    ensures AppendsWithoutStart(q.events, Run(q, steps).events, id)
    decreases |steps|
  {
    if |steps| > 0 {
      var q1 := Apply(q, steps[0]);
      StepKeepsAbsent(q, steps[0], id);
      assert NeverAdds(steps[1..], id) by {
        forall k | 0 <= k < |steps[1..]| && steps[1..][k].Add?
          ensures steps[1..][k].job.id != id
        {
          assert steps[1..][k] == steps[k + 1];
        }
      }
      AbsentJobNeverStarts(q1, steps[1..], id);
      var r := Run(q, steps);
      assert r == Run(q1, steps[1..]);
      assert r.events[|q.events|..] == q1.events[|q.events|..] + r.events[|q1.events|..];
    }
  }

  /** Cancelling a waiting job (ids unique) leaves it absent, so it never starts printing afterwards. */
  lemma CancelledJobNeverStarts(q: Queue, id: string, steps: seq<Step>)
    requires Valid(q)
    requires q.current.Some? ==> q.current.value.id != id
    requires forall i, j :: 0 <= i < j < |q.pending| ==> q.pending[i].id != q.pending[j].id
    requires CancelJob(q, id).1
    requires NeverAdds(steps, id)
    ensures AppendsWithoutStart(CancelJob(q, id).0.events, Run(CancelJob(q, id).0, steps).events, id)
  {
    var r := CancelJob(q, id);
    var k :| 0 <= k < |q.pending| && q.pending[k].id == id
      && r.0.pending == q.pending[..k] + q.pending[k + 1..];
    assert Absent(r.0, id) by {
      forall j | 0 <= j < |r.0.pending|
        ensures r.0.pending[j].id != id
      {
        if j < k {
          assert r.0.pending[j] == q.pending[j];
        } else {
          assert r.0.pending[j] == q.pending[j + 1];
        }
      }
    }
    AbsentJobNeverStarts(r.0, steps, id);
  }

  /** While a print call is outstanding, the runner starts nothing, even after the watchdog marked the job failed. */
  lemma WatchdogDoesNotAdvance(q: Queue, now: int)
    requires Valid(q) && q.current.Some?
    ensures ProcessNext(WatchdogFires(q), now) == WatchdogFires(q)
  {
  }

  /** A job the watchdog failed that then prints successfully ends `completed` but keeps the watchdog error. */
  lemma WatchdogThenSuccess(q: Queue, now: int)
    requires Valid(q) && q.current.Some? && q.current.value.status == Printing
    ensures var r := Finish(WatchdogFires(q), Printed, now);
      && r.events[|r.events| - 1].JobCompleted?
      && r.events[|r.events| - 1].job.status == Completed
      && r.events[|r.events| - 1].job.error == Some(WatchdogMessage)
  {
  }

  /**
   * A pause made while a job prints is undone by that job's continuation:
   * afterwards the next timer tick starts the head of the pending list.
   */
  lemma PauseDuringPrintIsUndone(q: Queue, outcome: PrintOutcome, now: int, later: int)
    requires Valid(q) && q.current.Some? && |q.pending| > 0
    ensures var r := ProcessNext(Finish(Pause(q), outcome, now), later);
      r.current.Some? && r.current.value.id == q.pending[0].id
  {
  }

  function SampleJob(id: string, f: Format): PrintJob {
    PrintJob(id, "ORD-1-abcdef", f, "Fujifilm ASK-400", 1, 0, Pending, None, None, None)
  }

  /**
   * Jobs A (10x15) and B (15x21) are added; A's print fails, B starts only
   * after that, prints, and the queue drains, with A failed (error kept) and
   * B completed.
   */
  lemma FailThenSucceedScenario()
    ensures var a := SampleJob("A", F10x15);
      var b := SampleJob("B", F15x21);
      var q1 := AddJob(AddJob(Initial(), a, 1), b, 2);
      var q2 := Finish(q1, PrintError("Error: Erro simulado na impressora"), 3);
      var q3 := ProcessNext(q2, 4);
      var q4 := Finish(q3, Printed, 5);
      && q1.current.Some? && q1.current.value.id == "A" && q1.pending == [b]
      && q2.events[|q2.events| - 1] == JobFailed(a.(status := Failed, startedAt := Some(1),
           error := Some("Error: Erro simulado na impressora"), completedAt := Some(3)))
      && q3.current.Some? && q3.current.value.id == "B"
      && q4.events[|q4.events| - 1].JobCompleted? && q4.events[|q4.events| - 1].job.id == "B"
      && Drained(q4)
  {
  }

  /**
   * Resuming while job A prints starts job B alongside it: two print calls
   * are outstanding and the invariant is broken. When A's call returns, it
   * is B that gets reported completed, and B's own call then finds no
   * current job and throws.
   */
  lemma ResumeDuringPrintStartsSecondJob()
    ensures var a := SampleJob("A", F10x15);
      var b := SampleJob("B", F15x21);
      var q1 := AddJob(AddJob(Initial(), a, 1), b, 2);
      var q2 := Resume(q1, 3);
      var q3 := Finish(q2, Printed, 4);
      var q4 := Finish(q3, Printed, 5);
      && Valid(q1)
      && q2.inFlight == 2 && !Valid(q2)
      && q3.events[|q3.events| - 1].JobCompleted? && q3.events[|q3.events| - 1].job.id == "B"
      && q4.events[|q4.events| - 1] == ContinuationThrew
  {
  }

  /** With the intended `resume`, the same scenario keeps one print call outstanding. */
  lemma ResumeFixedDuringPrintKeepsOneJob()
    ensures var a := SampleJob("A", F10x15);
      var b := SampleJob("B", F15x21);
      var q1 := AddJob(AddJob(Initial(), a, 1), b, 2);
      var q2 := ResumeFixed(q1, 3);
      && q2.inFlight == 1 && Valid(q2) && q2.pending == [b]
  {
  }
}

=== FILE: receipt.dfy ===
/**
 * The data behind the order receipt (server/receiptGenerator.ts): per-format
 * photo counts read from the stored order's metadata, the fixed unit prices,
 * the total, and which line items are drawn. Money is kept in integer
 * centavos, so R$ 0,75 is 75 and R$ 2,20 is 220.
 */
module Receipt {
  import opened Results
  import opened Formats
  import opened Store
  import Text

  const Price10x15: nat := 75
  const Price15x21: nat := 220

  /** The receipt's figures; the printing timestamp is left out. */
  datatype ReceiptData = ReceiptData(
    orderNumber: string,
    photoCount: int,
    format10x15: nat,
    format15x21: nat,
    price10x15: nat,
    price15x21: nat,
    totalPrice: nat)

  /** `order.metadata?.photos`, with a missing list read as empty. */
  function EntriesOf(o: OrderRow): seq<OrderEntry> {
    if o.metadata.Some? && o.metadata.value.photos.Some? then o.metadata.value.photos.value else []
  }

  /** The number of entries whose format string is exactly `name`. */
  function CountFormat(entries: seq<OrderEntry>, name: string): (n: nat)
    ensures n <= |entries|
    ensures n == |entries| <== forall k :: 0 <= k < |entries| ==> entries[k].format == name
  {
    if |entries| == 0 then 0
    else (if entries[0].format == name then 1 else 0) + CountFormat(entries[1..], name)
  }

  /** The two format counts never count an entry twice, and entries of any other format count in neither. */
  lemma {:induction false} CountsWithinEntries(entries: seq<OrderEntry>)
    ensures CountFormat(entries, "10x15") + CountFormat(entries, "15x21") <= |entries|
    ensures CountFormat(entries, "10x15") + CountFormat(entries, "15x21") == |entries|
        <==> forall k :: 0 <= k < |entries| ==> entries[k].format in {"10x15", "15x21"}
    decreases |entries|
  {
    if |entries| > 0 {
      CountsWithinEntries(entries[1..]);
      assert "10x15" != "15x21" by { assert "10x15"[1] != "15x21"[1]; }
      if forall k :: 1 <= k < |entries| ==> entries[k].format in {"10x15", "15x21"} {
        forall k | 0 <= k < |entries[1..]| ensures entries[1..][k].format in {"10x15", "15x21"} {
          assert entries[1..][k] == entries[k + 1];
        }
      }
      if forall k :: 0 <= k < |entries[1..]| ==> entries[1..][k].format in {"10x15", "15x21"} {
        forall k | 1 <= k < |entries| ensures entries[k].format in {"10x15", "15x21"} {
          assert entries[k] == entries[1..][k - 1];
        }
      }
    }
  }

  lemma {:induction false} CountFormatAppend(a: seq<OrderEntry>, b: seq<OrderEntry>, name: string)
    ensures CountFormat(a + b, name) == CountFormat(a, name) + CountFormat(b, name)
    decreases |a|
  {
    if |a| == 0 {
      assert a + b == b;
    } else {
      assert (a + b)[1..] == a[1..] + b;
      CountFormatAppend(a[1..], b, name);
    }
  }

  function NotFound(orderNumber: string): string {
    "Pedido " + orderNumber + " não encontrado"
  }

  /**
   * The receipt of an order: an unknown order number is an error; otherwise
   * the counts come from the metadata, the photo count from the order row,
   * and the total is each count times its unit price.
   */
  function GenerateReceipt(db: Db, orderNumber: string): (r: Result<ReceiptData, string>)
    ensures r.Err? <==> orderNumber !in db.orders
    ensures r.Err? ==> r.error == NotFound(orderNumber)
    ensures r.Ok? ==>
      var o := db.orders[orderNumber];
      && r.value.orderNumber == o.orderNumber
      && r.value.photoCount == o.photoCount
      && r.value.format10x15 == CountFormat(EntriesOf(o), "10x15")
      && r.value.format15x21 == CountFormat(EntriesOf(o), "15x21")
      && r.value.format10x15 + r.value.format15x21 <= |EntriesOf(o)|
      && r.value.price10x15 == 75 && r.value.price15x21 == 220
      && r.value.totalPrice == 75 * r.value.format10x15 + 220 * r.value.format15x21
  {
    if orderNumber !in db.orders then Err(NotFound(orderNumber))
    else
      var o := db.orders[orderNumber];
      var entries := EntriesOf(o);
      CountsWithinEntries(entries);
      var n10 := CountFormat(entries, Name(F10x15));
      var n15 := CountFormat(entries, Name(F15x21));
      Ok(ReceiptData(o.orderNumber, o.photoCount, n10, n15, Price10x15, Price15x21,
                     n10 * Price10x15 + n15 * Price15x21))
  }

  /** An order without metadata, or whose metadata has no photo list, is priced at zero. */
  lemma NoEntriesPricedZero(db: Db, orderNumber: string)
    requires orderNumber in db.orders && EntriesOf(db.orders[orderNumber]) == []
    ensures GenerateReceipt(db, orderNumber).Ok?
    ensures GenerateReceipt(db, orderNumber).value.totalPrice == 0
  {
  }

  /** `toFixed(2)` of an amount in reais, from its value in centavos. */
  function MoneyText(centavos: nat): (s: string)
    ensures Text.StartsWith(s, "R$ ")
  {
    "R$ " + Text.NatToString(centavos / 100) + "." + Cents(centavos % 100)
  }

  function Cents(k: nat): (s: string)
    requires k < 100
    ensures |s| == 2 && Text.AllDigits(s)
  {
    [Text.DigitChar(k / 10), Text.DigitChar(k % 10)]
  }

  /** Reads `R$ <reais>.<two-digit centavos>` back as centavos. */
  function ParseMoney(s: string): (r: Option<nat>)
    ensures r.Some? ==> Text.StartsWith(s, "R$ ")
  {
    if !Text.StartsWith(s, "R$ ") then None
    else
      var parts := Text.Split(s[3..], '.');
      if |parts| == 2 && |parts[0]| >= 1 && |parts[1]| == 2 && Text.AllDigits(parts[0]) && Text.AllDigits(parts[1])
      then Some(Text.ParseNat(parts[0]) * 100 + Text.ParseNat(parts[1]))
      else None
  }

  lemma ParseCents(k: nat)
    requires k < 100
    ensures Text.ParseNat(Cents(k)) == k
  {
    var s := Cents(k);
    assert s[..|s| - 1] == [s[0]];
    assert [s[0]][..0] == [];
    assert Text.ParseNat([s[0]]) == k / 10;
    assert Text.DigitValue(s[1]) == k % 10;
  }

  /** The printed amount reads back as the amount in centavos. */
  lemma MoneyRoundTrip(centavos: nat)
    ensures ParseMoney(MoneyText(centavos)) == Some(centavos)
  {
    var whole := Text.NatToString(centavos / 100);
    var cents := Cents(centavos % 100);
    var s := MoneyText(centavos);
    assert s[3..] == whole + ['.'] + cents;
    assert '.' !in cents && '.' !in whole by {
      assert forall c :: Text.IsDigit(c) ==> c != '.';
    }
    Text.SplitAppend(whole, '.', cents);
    Text.SplitNoSep(whole, '.');
    Text.ParseNatToString(centavos / 100);
    ParseCents(centavos % 100);
  }

  /** The unit prices print as on the receipt. */
  lemma UnitPriceTexts()
    ensures MoneyText(Price10x15) == "R$ 0.75"
    ensures MoneyText(Price15x21) == "R$ 2.20"
  {
  }

  /** A drawn line item: the count, the format, the unit price and the subtotal, in centavos. */
  datatype LineItem = LineItem(count: nat, format: Format, unitPrice: nat, subtotal: nat)

  /** The line items drawn: a format's line appears only when its count is positive. */
  function LineItems(r: ReceiptData): (items: seq<LineItem>)
    ensures |items| <= 2
    ensures (exists k :: 0 <= k < |items| && items[k].format == F10x15) <==> r.format10x15 > 0
    ensures (exists k :: 0 <= k < |items| && items[k].format == F15x21) <==> r.format15x21 > 0
    ensures forall k :: 0 <= k < |items| ==> items[k].count > 0 && items[k].subtotal == items[k].count * items[k].unitPrice
  {
    var a := LineItem(r.format10x15, F10x15, r.price10x15, r.format10x15 * r.price10x15);
    var b := LineItem(r.format15x21, F15x21, r.price15x21, r.format15x21 * r.price15x21);
    if r.format10x15 > 0 && r.format15x21 > 0 then
      var ab := [a, b];
      assert ab[0].format == F10x15 && ab[1].format == F15x21;
      ab
    else if r.format10x15 > 0 then
      var one := [a];
      assert one[0].format == F10x15;
      one
    else if r.format15x21 > 0 then
      var one := [b];
      assert one[0].format == F15x21;
      one
    else []
  }

  function SumSubtotals(items: seq<LineItem>): nat {
    if |items| == 0 then 0 else items[0].subtotal + SumSubtotals(items[1..])
  }

  /** The drawn line items add up to the printed total. */
  lemma LineItemsAddUpToTotal(db: Db, orderNumber: string)
    requires GenerateReceipt(db, orderNumber).Ok?
    ensures SumSubtotals(LineItems(GenerateReceipt(db, orderNumber).value)) == GenerateReceipt(db, orderNumber).value.totalPrice
  {
    var r := GenerateReceipt(db, orderNumber).value;
    var items := LineItems(r);
    if |items| == 2 {
      assert SumSubtotals(items[1..]) == items[1].subtotal by { assert items[1..][1..] == []; }
    } else if |items| == 1 {
      assert items[1..] == [];
    }
  }

  /** The text of a line item, as drawn at the left and right of its row. */
  function LineItemText(item: LineItem): (string, string) {
    (Text.NatToString(item.count) + "x Foto " + (if item.format == F10x15 then "10×15" else "15×21")
       + " cm @ " + MoneyText(item.unitPrice),
     MoneyText(item.subtotal))
  }
}

=== FILE: results.dfy ===
/** Optional values, their JavaScript truthiness, success-or-error results and the first-match search shared by every module of the model. */
module Results {

  /** A value that may be absent: JavaScript's `undefined`/`null` against a present value. */
  datatype Option<+T> = None | Some(value: T) {

    /** The carried value, or `default` when absent (JavaScript's `x ?? default`). */
    function GetOr(default: T): T {
      match this
      case Some(v) => v
      case None => default
    }
  }

  /** The outcome of an operation that either produces a value or throws an error. */
  datatype Result<+T, +E> = Ok(value: T) | Err(error: E)

  /** JavaScript truthiness of an optional string: present and non-empty. */
  predicate Truthy(s: Option<string>) {
    s.Some? && s.value != ""
  }

  /** JavaScript's `findIndex`: the first position whose element satisfies `p`, or none when no element does. */
  function FindIndex<T>(s: seq<T>, p: T -> bool): (r: Option<nat>)
    ensures r.Some? ==> r.value < |s| && p(s[r.value])
    ensures r.Some? ==> forall k :: 0 <= k < r.value ==> !p(s[k])
    ensures r.None? ==> forall k :: 0 <= k < |s| ==> !p(s[k])
  {
    if |s| == 0 then None
    else if p(s[0]) then Some(0)
    else match FindIndex(s[1..], p)
      case Some(k) => Some(k + 1)
      case None => None
  }
}

=== FILE: routers.dfy ===
/**
 * The kiosk's remote procedures (server/routers.ts): creating an upload
 * session, changing a photo's selection and format, and creating an order
 * from the selected photos. Clock readings and nanoid values are parameters.
 */
module Routers {
  import opened Results
  import opened Formats
  import opened Store
  import Text
  import Receipt
  import Upload

  /** Sessions last ten minutes, in milliseconds. */
  const SessionLifetime: int := 10 * 60 * 1000

  /** `createSession`: a fresh session, active until ten minutes from now. */
  function CreateSession(db: Db, sessionId: string, now: int): (r: Result<(Db, string, int), string>)
    ensures r.Ok? <==> sessionId !in db.sessions
    ensures r.Ok? ==> && r.value.1 == sessionId && r.value.2 == now + 600000
                      && r.value.0 == db.(sessions := db.sessions[sessionId := Session(sessionId, Active, now + 600000)])
  {
    var s := Session(sessionId, Active, now + SessionLifetime);
    match InsertSession(db, s)
    case Err(e) => Err(e)
    case Ok(db1) => Ok((db1, s.sessionId, s.expiresAt))
  }

  /**
   * A new session admits a non-empty upload exactly up to and including its
   * expiry instant, ten minutes after creation.
   */
  lemma NewSessionUploadWindow(db: Db, sessionId: string, now: int, t: int, files: seq<Upload.UploadedFile>)
    requires sessionId != "" && sessionId !in db.sessions && |files| > 0
    ensures Upload.Admit(Some(sessionId), CreateSession(db, sessionId, now).value.0, t, Some(files)).Ok? <==> t <= now + 600000
  {
  }

  /** A photo picked for the order, as the client sends it. */
  datatype SelectedPhoto = SelectedPhoto(photoId: int, fileKey: string, fileName: string, format: Format)

  /** `ORD-<now>-<suffix>`. */
  function OrderNumber(now: nat, suffix: string): string {
    "ORD-" + Text.NatToString(now) + "-" + suffix
  }

  /** Reads an order number back into its creation time and its random suffix. */
  function ParseOrderNumber(s: string): (r: Option<(nat, string)>)
    ensures r.Some? ==> Text.StartsWith(s, "ORD-")
  {
    if !Text.StartsWith(s, "ORD-") then None
    else
      var parts := Text.Split(s[4..], '-');
      if |parts| >= 2 && |parts[0]| >= 1 && Text.AllDigits(parts[0]) && 4 + |parts[0]| + 1 <= |s|
      then Some((Text.ParseNat(parts[0]), s[4 + |parts[0]| + 1..]))
      else None
  }

  /** The order number gives back the time and the suffix it was made from, whatever characters the suffix holds. */
  lemma OrderNumberRoundTrip(now: nat, suffix: string)
    ensures ParseOrderNumber(OrderNumber(now, suffix)) == Some((now, suffix))
  {
    var digits := Text.NatToString(now);
    var s := OrderNumber(now, suffix);
    assert s[4..] == digits + ['-'] + suffix;
    assert '-' !in digits by { assert forall c :: Text.IsDigit(c) ==> c != '-'; }
    Text.SplitPrepend(digits, '-', suffix);
    Text.ParseNatToString(now);
    assert s[4 + |digits| + 1..] == suffix;
  }

  /** The order-number shape `^ORD-\d+-[A-Za-z0-9_-]{6}$`. */
  predicate OrderNumberShape(s: string) {
    && |s| >= 12 && s[..4] == "ORD-" && s[|s| - 7] == '-'
    && Text.AllDigits(s[4..|s| - 7]) && Text.AllWordChars(s[|s| - 6..])
  }

  /** With a six-character nanoid suffix, every order number has the expected shape. */
  lemma OrderNumberHasShape(now: nat, suffix: string)
    requires |suffix| == 6 && Text.AllWordChars(suffix)
    ensures OrderNumberShape(OrderNumber(now, suffix))
  {
    var s := OrderNumber(now, suffix);
    var digits := Text.NatToString(now);
    assert s[4..|s| - 7] == digits;
    assert s[|s| - 6..] == suffix;
  }

  /** The metadata entry of a selected photo: its photo id is dropped. */
  function EntryOf(p: SelectedPhoto): OrderEntry {
    OrderEntry(p.fileKey, p.fileName, Name(p.format))
  }

  function EntriesOf(selected: seq<SelectedPhoto>): (entries: seq<OrderEntry>)
    ensures |entries| == |selected|
    ensures forall k :: 0 <= k < |selected| ==>
      && entries[k].fileKey == selected[k].fileKey && entries[k].fileName == selected[k].fileName
      && entries[k].format == Name(selected[k].format)
  {
    seq(|selected|, k requires 0 <= k < |selected| => EntryOf(selected[k]))
  }

  /**
   * `createOrder`: the order row is stored pending with one metadata entry
   * per selected photo, in order, then the session is marked completed. The
   * session is not checked, and an empty selection is accepted. The clock is
   * read twice: `now` goes into the order number and `stampedAt`, read a
   * moment later, into the metadata's timestamp.
   */
  function CreateOrder(db: Db, sessionId: string, selected: seq<SelectedPhoto>, now: nat, suffix: string, stampedAt: nat)
    : (r: Result<(Db, string, int), string>)
    ensures r.Ok? <==> OrderNumber(now, suffix) !in db.orders
    ensures r.Ok? ==>
      var n := OrderNumber(now, suffix);
      var db1 := r.value.0;
      && r.value.1 == n && r.value.2 == |selected|
      && n in db1.orders
      && db1.orders[n] == OrderRow(sessionId, n, |selected|, Some(OrderJson(Some(EntriesOf(selected)), stampedAt)), OrderPending)
      && db1.orders == db.orders[n := db1.orders[n]]
      && db1.photos == db.photos
      && db1.sessions.Keys == db.sessions.Keys
      && (sessionId in db.sessions ==> db1.sessions[sessionId] == db.sessions[sessionId].(status := Completed))
      && (forall k :: k in db.sessions && k != sessionId ==> db1.sessions[k] == db.sessions[k])
  {
    var n := OrderNumber(now, suffix);
    var row := OrderRow(sessionId, n, |selected|, Some(OrderJson(Some(EntriesOf(selected)), stampedAt)), OrderPending);
    match InsertOrder(db, row)
    case Err(e) => Err(e)
    case Ok(db1) => Ok((SetSessionStatus(db1, sessionId, Completed), row.orderNumber, row.photoCount))
  }

  function CountSelected(selected: seq<SelectedPhoto>, f: Format): (n: nat)
    ensures n <= |selected|
    ensures n == 0 <==> forall k :: 0 <= k < |selected| ==> !(selected[k].format == f)
    ensures n == |selected| <==> forall k :: 0 <= k < |selected| ==> selected[k].format == f
  {
    if |selected| == 0 then 0
    else (if selected[0].format == f then 1 else 0) + CountSelected(selected[1..], f)
  }

  lemma {:induction false} CountEntriesBySelected(selected: seq<SelectedPhoto>, f: Format)
    ensures Receipt.CountFormat(EntriesOf(selected), Name(f)) == CountSelected(selected, f)
    decreases |selected|
  {
    if |selected| > 0 {
      CountEntriesBySelected(selected[1..], f);
      assert EntriesOf(selected)[1..] == EntriesOf(selected[1..]);
      Formats.ParseName(selected[0].format);
      Formats.ParseName(f);
    }
  }

  lemma {:induction false} SelectedSplitByFormat(selected: seq<SelectedPhoto>)
    ensures CountSelected(selected, F10x15) + CountSelected(selected, F15x21) == |selected|
    decreases |selected|
  {
    if |selected| > 0 {
      SelectedSplitByFormat(selected[1..]);
    }
  }

  /**
   * The receipt of a just-created order finds it, counts every selected
   * photo under its own format, agrees with the order's photo count, and
   * prices it at 75 and 220 centavos per photo.
   */
  lemma ReceiptOfCreatedOrder(db: Db, sessionId: string, selected: seq<SelectedPhoto>, now: nat, suffix: string, stampedAt: nat)
    requires CreateOrder(db, sessionId, selected, now, suffix, stampedAt).Ok?
    ensures var db1 := CreateOrder(db, sessionId, selected, now, suffix, stampedAt).value.0;
            var r := Receipt.GenerateReceipt(db1, OrderNumber(now, suffix));
            && r.Ok?
            && r.value.format10x15 == CountSelected(selected, F10x15)
            && r.value.format15x21 == CountSelected(selected, F15x21)
            && r.value.format10x15 + r.value.format15x21 == r.value.photoCount == |selected|
            && r.value.totalPrice == 75 * CountSelected(selected, F10x15) + 220 * CountSelected(selected, F15x21)
  {
    var created := CreateOrder(db, sessionId, selected, now, suffix, stampedAt);
    var n := OrderNumber(now, suffix);
    var db1 := created.value.0;
    assert n in db1.orders;
    assert db1.orders[n].metadata == Some(OrderJson(Some(EntriesOf(selected)), stampedAt));
    assert Receipt.EntriesOf(db1.orders[n]) == EntriesOf(selected);
    CountEntriesBySelected(selected, F10x15);
    CountEntriesBySelected(selected, F15x21);
    SelectedSplitByFormat(selected);
  }

  /** An order with no photos is created, with a photo count of 0 and a zero total. */
  lemma EmptyOrderAccepted(db: Db, sessionId: string, now: nat, suffix: string, stampedAt: nat)
    requires OrderNumber(now, suffix) !in db.orders
    ensures CreateOrder(db, sessionId, [], now, suffix, stampedAt).Ok?
    ensures CreateOrder(db, sessionId, [], now, suffix, stampedAt).value.2 == 0
    ensures Receipt.GenerateReceipt(CreateOrder(db, sessionId, [], now, suffix, stampedAt).value.0, OrderNumber(now, suffix)).value.totalPrice == 0
  {
    ReceiptOfCreatedOrder(db, sessionId, [], now, suffix, stampedAt);
  }

  /**
   * `updatePhotoSelection`: the photo's `selected` is set, its format only
   * when one is given; an unknown id changes nothing. The answer is always
   * success.
   */
  function UpdatePhotoSelection(db: Db, photoId: int, selected: int, format: Option<Format>): (r: (Db, bool))
    ensures r.1
    ensures r.0.sessions == db.sessions && r.0.orders == db.orders && r.0.photos.Keys == db.photos.Keys
    ensures forall k :: k in db.photos && k != photoId ==> r.0.photos[k] == db.photos[k]
    ensures photoId >= 0 && photoId as nat in db.photos ==>
      var prev := db.photos[photoId as nat];
      r.0.photos[photoId as nat] == prev.(selected := selected, format := if format.Some? then format else prev.format)
    ensures (photoId < 0 || photoId as nat !in db.photos) ==> r.0 == db
  {
    if photoId >= 0 && photoId as nat in db.photos then
      var p := db.photos[photoId as nat];
      var p1 := p.(selected := selected, format := if format.Some? then format else p.format);
      (db.(photos := db.photos[photoId as nat := p1]), true)
    else (db, true)
  }

  /** Choosing without a format keeps the format chosen earlier. */
  lemma SelectionKeepsFormat(db: Db, photoId: nat, f: Format)
    requires photoId in db.photos
    ensures var db1 := UpdatePhotoSelection(db, photoId, 1, Some(f)).0;
            UpdatePhotoSelection(db1, photoId, 0, None).0.photos[photoId].format == Some(f)
  {
  }
}

=== FILE: store.dfy ===
/**
 * The database as an abstract value (drizzle/schema.ts, server/db.ts):
 * sessions keyed by their public id, photos by their auto-increment id, and
 * orders by their order number. The SQL layer is not modelled; each row
 * operation is the map update the corresponding query performs.
 */
module Store {
  import opened Results
  import opened Formats

  datatype SessionStatus = Active | Completed | Expired

  /** A session row; `expiresAt` is in milliseconds since the epoch. */
  datatype Session = Session(sessionId: string, status: SessionStatus, expiresAt: int)

  /** A photo row; `selected` is 0 or 1 by convention, `format` is unset until chosen. */
  datatype PhotoRow = PhotoRow(
    id: nat,
    sessionId: string,
    fileKey: string,
    fileUrl: string,
    fileName: string,
    mimeType: string,
    fileSize: int,
    selected: int,
    format: Option<Format>)

  /** One photo of an order's JSON metadata; the column's type lets `format` be any string. */
  datatype OrderEntry = OrderEntry(fileKey: string, fileName: string, format: string)

  /** The order's JSON metadata; readers treat a missing `photos` list as empty. */
  datatype OrderJson = OrderJson(photos: Option<seq<OrderEntry>>, timestamp: int)

  datatype OrderRowStatus = OrderPending | OrderProcessing | OrderCompleted | OrderFailed

  datatype OrderRow = OrderRow(
    sessionId: string,
    orderNumber: string,
    photoCount: int,
    metadata: Option<OrderJson>,
    status: OrderRowStatus)

  /** The three tables, with the next auto-increment photo id. */
  datatype Db = Db(
    sessions: map<string, Session>,
    photos: map<nat, PhotoRow>,
    orders: map<string, OrderRow>,
    nextPhotoId: nat)

  /** Every stored row is filed under its own key, and photo ids are below the next one. */
  ghost predicate WellKeyed(db: Db) {
    && (forall k :: k in db.sessions ==> db.sessions[k].sessionId == k)
    && (forall k :: k in db.photos ==> db.photos[k].id == k && k < db.nextPhotoId)
    && (forall k :: k in db.orders ==> db.orders[k].orderNumber == k)
  }

  function EmptyDb(): (db: Db)
    ensures WellKeyed(db)
    ensures db.sessions == map[] && db.photos == map[] && db.orders == map[]
  {
    Db(map[], map[], map[], 0)
  }

  /** `createSession`: the unique `sessionId` column refuses a duplicate. */
  function InsertSession(db: Db, s: Session): (r: Result<Db, string>)
    ensures r.Ok? <==> s.sessionId !in db.sessions
    ensures r.Ok? ==> r.value == db.(sessions := db.sessions[s.sessionId := s])
    ensures r.Ok? && WellKeyed(db) ==> WellKeyed(r.value)
  {
    if s.sessionId in db.sessions then Err("Duplicate entry for sessionId")
    else Ok(db.(sessions := db.sessions[s.sessionId := s]))
  }

  /** `updateSessionStatus`: an update whose `where` matches no row changes nothing. */
  function SetSessionStatus(db: Db, sessionId: string, status: SessionStatus): (r: Db)
    ensures sessionId in db.sessions ==> r.sessions == db.sessions[sessionId := db.sessions[sessionId].(status := status)]
    ensures sessionId !in db.sessions ==> r == db
    ensures r.sessions.Keys == db.sessions.Keys && r.photos == db.photos && r.orders == db.orders
    ensures WellKeyed(db) ==> WellKeyed(r)
  {
    if sessionId in db.sessions then
      db.(sessions := db.sessions[sessionId := db.sessions[sessionId].(status := status)])
    else db
  }

  /** `createPhoto`: the row gets the next auto-increment id. */
  function InsertPhoto(db: Db, p: PhotoRow): (r: (Db, PhotoRow))
    ensures r.1 == p.(id := db.nextPhotoId)
    ensures r.0.photos == db.photos[db.nextPhotoId := r.1] && r.0.nextPhotoId == db.nextPhotoId + 1
    ensures r.0.sessions == db.sessions && r.0.orders == db.orders
    ensures WellKeyed(db) ==> WellKeyed(r.0) && db.nextPhotoId !in db.photos
  {
    var row := p.(id := db.nextPhotoId);
    (db.(photos := db.photos[db.nextPhotoId := row], nextPhotoId := db.nextPhotoId + 1), row)
  }

  /** `createOrder`: the unique `orderNumber` column refuses a duplicate. */
  function InsertOrder(db: Db, o: OrderRow): (r: Result<Db, string>)
    ensures r.Ok? <==> o.orderNumber !in db.orders
    ensures r.Ok? ==> r.value == db.(orders := db.orders[o.orderNumber := o])
    ensures r.Ok? && WellKeyed(db) ==> WellKeyed(r.value)
  {
    if o.orderNumber in db.orders then Err("Duplicate entry for orderNumber")
    else Ok(db.(orders := db.orders[o.orderNumber := o]))
  }
}

=== FILE: text.dfy ===
/**
 * String helpers with JavaScript semantics: decimal rendering of integers in
 * template literals, `String.prototype.split` with a one-character separator
 * followed by `Array.prototype.pop`, and `startsWith`/`includes`.
 */
module Text {

  predicate IsDigit(c: char) {
    '0' <= c <= '9'
  }

  predicate AllDigits(s: string) {
    forall i :: 0 <= i < |s| ==> IsDigit(s[i])
  }

  /**
   * A character of the class `[A-Za-z0-9_-]`: the regular-expression class
   * `[\w-]`, which is also the alphabet of nanoid identifiers.
   */
  predicate IsWordChar(c: char) {
    ('a' <= c <= 'z') || ('A' <= c <= 'Z') || IsDigit(c) || c == '_' || c == '-'
  }

  predicate AllWordChars(s: string) {
    forall k :: 0 <= k < |s| ==> IsWordChar(s[k])
  }

  function DigitChar(d: nat): (c: char)
    requires d < 10
    ensures IsDigit(c)
  {
    (('0' as int) + d) as char
  }

  function DigitValue(c: char): (d: nat)
    requires IsDigit(c)
    ensures d < 10
  {
    (c as int) - ('0' as int)
  }

  /** Decimal rendering of a non-negative integer, without leading zeros. */
  function NatToString(n: nat): (s: string)
    ensures |s| >= 1
    ensures AllDigits(s)
    ensures |s| > 1 ==> s[0] != '0'
    decreases n
  {
    if n < 10 then [DigitChar(n)]
    else NatToString(n / 10) + [DigitChar(n % 10)]
  }

  /** Reads a string of decimal digits back as a number. */
  function ParseNat(s: string): nat
    requires AllDigits(s)
  {
    if |s| == 0 then 0
    else ParseNat(s[..|s| - 1]) * 10 + DigitValue(s[|s| - 1])
  }

  /** Rendering then reading a number gives it back. */
  lemma {:induction false} ParseNatToString(n: nat)
    ensures ParseNat(NatToString(n)) == n
    decreases n
  {
    var s := NatToString(n);
    if n >= 10 {
      assert s[..|s| - 1] == NatToString(n / 10);
      ParseNatToString(n / 10);
    }
  }

  /** Distinct numbers render as distinct strings. */
  lemma NatToStringInjective(a: nat, b: nat)
    ensures NatToString(a) == NatToString(b) ==> a == b
  {
    ParseNatToString(a);
    ParseNatToString(b);
  }

  /** Decimal rendering of any integer, with a leading '-' for negatives (JavaScript's `${n}`). */
  function IntToString(i: int): (s: string)
    ensures i >= 0 ==> s == NatToString(i)
    ensures i < 0 ==> s == "-" + NatToString(-i)
  {
    if i < 0 then "-" + NatToString(-i) else NatToString(i)
  }

  predicate StartsWith(s: string, prefix: string) {
    |prefix| <= |s| && s[..|prefix|] == prefix
  }

  lemma StartsWithConcat(prefix: string, rest: string)
    ensures StartsWith(prefix + rest, prefix)
  {
    assert (prefix + rest)[..|prefix|] == prefix;
  }

  /** Concatenation of the parts with `sep` between neighbours (JavaScript's `join`). */
  function Join(parts: seq<string>, sep: char): string
    requires |parts| >= 1
  {
    if |parts| == 1 then parts[0]
    else parts[0] + [sep] + Join(parts[1..], sep)
  }

  /**
   * JavaScript's `s.split(sep)` for a one-character separator: the maximal
   * separator-free pieces, including empty ones at the ends and between
   * adjacent separators. Joining them back gives `s`.
   */
  function Split(s: string, sep: char): (parts: seq<string>)
    ensures |parts| >= 1
    ensures forall i :: 0 <= i < |parts| ==> sep !in parts[i]
    ensures Join(parts, sep) == s
    decreases |s|
  {
    if |s| == 0 then [""]
    else
      var rest := Split(s[1..], sep);
      if s[0] == sep then
        [""] + rest
      else
        JoinConsFirst(s[0], rest, sep);
        [[s[0]] + rest[0]] + rest[1..]
  }

  lemma JoinConsFirst(c: char, parts: seq<string>, sep: char)
    requires |parts| >= 1
    ensures Join([[c] + parts[0]] + parts[1..], sep) == [c] + Join(parts, sep)
  {
    var q := [[c] + parts[0]] + parts[1..];
    assert q[1..] == parts[1..];
  }

  /** The last piece of `s.split(sep)`, i.e. `s.split(sep).pop()`. */
  function LastPiece(s: string, sep: char): (r: string)
    ensures sep !in r
  {
    var parts := Split(s, sep);
    parts[|parts| - 1]
  }

  /** A string without the separator splits into itself alone. */
  lemma {:induction false} SplitNoSep(s: string, sep: char)
    requires sep !in s
    ensures Split(s, sep) == [s]
    decreases |s|
  {
    if |s| > 0 {
      SplitNoSep(s[1..], sep);
    }
  }

  /** Splitting `a + sep + b` with `a` separator-free starts with the piece `a`. */
  lemma {:induction false} SplitPrepend(a: string, sep: char, b: string)
    requires sep !in a
    ensures Split(a + [sep] + b, sep) == [a] + Split(b, sep)
    decreases |a|
  {
    var s := a + [sep] + b;
    if |a| == 0 {
      assert s[1..] == b;
    } else {
      assert s[1..] == a[1..] + [sep] + b;
      SplitPrepend(a[1..], sep, b);
      var rest := Split(s[1..], sep);
      assert rest[0] == a[1..] && rest[1..] == Split(b, sep);
      assert [s[0]] + rest[0] == a;
    }
  }

  /** Splitting `a + sep + b` with `b` separator-free ends with the piece `b`. */
  lemma {:induction false} SplitAppend(a: string, sep: char, b: string)
    requires sep !in b
    ensures Split(a + [sep] + b, sep) == Split(a, sep) + [b]
    decreases |a|
  {
    var s := a + [sep] + b;
    if |a| == 0 {
      assert s[1..] == b;
      SplitNoSep(b, sep);
    } else {
      assert s[1..] == a[1..] + [sep] + b;
      SplitAppend(a[1..], sep, b);
    }
  }

  /** The last piece of `s` is exactly the text after the last separator, or all of `s` when there is none. */
  lemma LastPieceAfterLastSep(a: string, sep: char, b: string)
    requires sep !in b
    ensures LastPiece(a + [sep] + b, sep) == b
  {
    SplitAppend(a, sep, b);
  }

  lemma LastPieceNoSep(s: string, sep: char)
    requires sep !in s
    ensures LastPiece(s, sep) == s
  {
    SplitNoSep(s, sep);
  }

  /** A string of the form `w0 w1 ... wn` whose words contain no space splits into exactly those words. */
  function Words(ws: seq<string>): string
    requires |ws| >= 1
    decreases |ws|
  {
    if |ws| == 1 then ws[0] else Words(ws[..|ws| - 1]) + " " + ws[|ws| - 1]
  }

  lemma {:induction false} SplitWords(ws: seq<string>)
    requires |ws| >= 1
    requires forall k :: 0 <= k < |ws| ==> ' ' !in ws[k]
    ensures Split(Words(ws), ' ') == ws
    decreases |ws|
  {
    if |ws| == 1 {
      SplitNoSep(ws[0], ' ');
    } else {
      var init := ws[..|ws| - 1];
      SplitWords(init);
      SplitAppend(Words(init), ' ', ws[|ws| - 1]);
      assert Words(init) + " " + ws[|ws| - 1] == Words(init) + [' '] + ws[|ws| - 1];
      assert init + [ws[|ws| - 1]] == ws;
    }
  }
}

=== FILE: upload.dfy ===
/**
 * The photo upload endpoint (server/uploadHandler.ts): the admission checks
 * on the session and the request, the MIME filter, the storage key built
 * from a fresh id and the original file's extension, and the photo rows
 * written. Fresh ids and the object store are parameters: `ids` supplies the
 * successive `nanoid(16)` values and `storage` answers each put with a URL or
 * an error.
 */
module Upload {
  import opened Results
  import opened Store
  import Text

  const SupportedMimeTypes: seq<string> := ["image/jpeg", "image/jpg", "image/png", "image/heic", "image/heif"]

  /** A file of the multipart request (its bytes are left out). */
  datatype UploadedFile = UploadedFile(originalName: string, mimeType: string, size: int)

  /** The part of a created photo row echoed in the response. */
  datatype UploadedPhoto = UploadedPhoto(id: nat, fileName: string, fileUrl: string)

  /** The HTTP answer: a status with an error message, or 200 with the accepted photos. */
  datatype Response =
    | Rejected(status: nat, error: string)
    | Accepted(uploadedCount: nat, photos: seq<UploadedPhoto>)
    | Failed

  /** The status code of a response; `Failed` is the catch-all 500. */
  function StatusCode(r: Response): nat {
    match r
    case Rejected(s, _) => s
    case Accepted(_, _) => 200
    case Failed => 500
  }

  /**
   * The checks made before any file is looked at, in their order: a session
   * id is given, the session exists, it is active, it has not expired, and
   * at least one file came with the request. The files are returned when
   * all pass. A request at exactly `expiresAt` passes.
   */
  function Admit(sessionId: Option<string>, db: Db, now: int, files: Option<seq<UploadedFile>>): (r: Result<seq<UploadedFile>, Response>)
    ensures r.Ok? <==> && sessionId.Some? && sessionId.value != ""
                       && sessionId.value in db.sessions
                       && db.sessions[sessionId.value].status == Active
                       && now <= db.sessions[sessionId.value].expiresAt
                       && files.Some? && |files.value| > 0
    ensures r.Ok? ==> r.value == files.value
    ensures r.Err? ==> r.error.Rejected?
    ensures r.Err? && (sessionId.None? || sessionId.value == "") ==> r.error == Rejected(400, "Session ID is required")
    ensures r.Err? && r.error.status == 404 <==> sessionId.Some? && sessionId.value != "" && sessionId.value !in db.sessions
    ensures r.Err? && r.error.status != 404 ==> r.error.status == 400
    ensures sessionId.Some? && sessionId.value != "" && sessionId.value !in db.sessions ==>
      r == Err(Rejected(404, "Session not found"))
    ensures sessionId.Some? && sessionId.value != "" && sessionId.value in db.sessions ==>
      var s := db.sessions[sessionId.value];
      && (s.status != Active ==> r == Err(Rejected(400, "Session is not active")))
      && (s.status == Active && now > s.expiresAt ==> r == Err(Rejected(400, "Session has expired")))
      && (s.status == Active && now <= s.expiresAt && (files.None? || |files.value| == 0) ==>
            r == Err(Rejected(400, "No files uploaded")))
  {
    if sessionId.None? || sessionId.value == "" then Err(Rejected(400, "Session ID is required"))
    else if sessionId.value !in db.sessions then Err(Rejected(404, "Session not found"))
    else
      var s := db.sessions[sessionId.value];
      if s.status != Active then Err(Rejected(400, "Session is not active"))
      else if now > s.expiresAt then Err(Rejected(400, "Session has expired"))
      else if files.None? || |files.value| == 0 then Err(Rejected(400, "No files uploaded"))
      else Ok(files.value)
  }

  predicate Supported(f: UploadedFile) {
    f.mimeType in SupportedMimeTypes
  }

  /** `originalname.split('.').pop() || 'jpg'`. */
  function Extension(originalName: string): (ext: string)
    ensures ext != "" && '.' !in ext
  {
    var last := Text.LastPiece(originalName, '.');
    if last == "" then "jpg" else last
  }

  /** The extension of `stem.ext` is `ext`. */
  lemma ExtensionAfterDot(stem: string, ext: string)
    requires '.' !in ext && ext != ""
    ensures Extension(stem + "." + ext) == ext
  {
    assert stem + "." + ext == stem + ['.'] + ext;
    Text.LastPieceAfterLastSep(stem, '.', ext);
  }

  /** A name without a dot is its own extension; a name ending in a dot gets `jpg`. */
  lemma ExtensionEdgeCases(name: string, stem: string)
    ensures '.' !in name && name != "" ==> Extension(name) == name
    ensures Extension(stem + ".") == "jpg"
  {
    if '.' !in name {
      Text.LastPieceNoSep(name, '.');
    }
    assert stem + "." == stem + ['.'] + "";
    Text.LastPieceAfterLastSep(stem, '.', "");
  }

  /** `totem-uploads/<sessionId>/<id>.<ext>`. */
  function FileKey(sessionId: string, id: string, ext: string): string {
    "totem-uploads/" + sessionId + "/" + id + "." + ext
  }

  /**
   * The stored key keeps the original file's extension, and its last path
   * component is `<id>.<ext>`.
   */
  lemma FileKeyKeepsExtension(sessionId: string, id: string, originalName: string)
    requires '/' !in id && '.' !in id && '/' !in Extension(originalName)
    ensures var ext := Extension(originalName);
      && Extension(FileKey(sessionId, id, ext)) == ext
      && Text.LastPiece(FileKey(sessionId, id, ext), '/') == id + "." + ext
  {
    var ext := Extension(originalName);
    var key := FileKey(sessionId, id, ext);
    assert key == ("totem-uploads/" + sessionId + "/" + id) + "." + ext;
    ExtensionAfterDot("totem-uploads/" + sessionId + "/" + id, ext);
    assert '/' !in id + "." + ext;
    assert key == ("totem-uploads/" + sessionId) + ['/'] + (id + "." + ext);
    Text.LastPieceAfterLastSep("totem-uploads/" + sessionId, '/', id + "." + ext);
  }

  /** The row written for an accepted file, before the database assigns its id. */
  function NewPhotoRow(sessionId: string, f: UploadedFile, key: string, url: string): (row: PhotoRow)
    ensures row.selected == 0 && row.format.None? && row.fileKey == key && row.sessionId == sessionId
    ensures row.fileName == f.originalName && row.mimeType == f.mimeType && row.fileUrl == url
  {
    PhotoRow(0, sessionId, key, url, f.originalName, f.mimeType, f.size, 0, None)
  }

  function CountSupported(files: seq<UploadedFile>): (n: nat)
    ensures n <= |files|
    ensures n == 0 <==> forall k :: 0 <= k < |files| ==> !(Supported(files[k]))
    ensures n == |files| <==> forall k :: 0 <= k < |files| ==> Supported(files[k])
  {
    if |files| == 0 then 0 else (if Supported(files[0]) then 1 else 0) + CountSupported(files[1..])
  }

  /** The files the loop does not skip, in request order. */
  function SupportedFiles(files: seq<UploadedFile>): (sf: seq<UploadedFile>)
    ensures |sf| == CountSupported(files)
    ensures forall k :: 0 <= k < |sf| ==> Supported(sf[k]) && sf[k] in files
  {
    if |files| == 0 then []
    else if Supported(files[0]) then [files[0]] + SupportedFiles(files[1..])
    else SupportedFiles(files[1..])
  }

  /**
   * The loop over the files: unsupported ones are skipped; each supported one
   * takes the next fresh id, is put to storage under its key and gets a
   * photo row. A storage error ends the loop with the database as it stands.
   */
  function StoreFiles(db: Db, sessionId: string, files: seq<UploadedFile>, ids: seq<string>,
                      storage: string -> Result<string, string>): (r: (Db, Result<seq<UploadedPhoto>, string>))
    requires CountSupported(files) <= |ids|
    ensures r.1.Ok? ==> |r.1.value| == CountSupported(files)
    ensures r.1.Ok? ==> r.0.nextPhotoId == db.nextPhotoId + CountSupported(files)
    ensures r.0.sessions == db.sessions && r.0.orders == db.orders
    ensures r.0.nextPhotoId >= db.nextPhotoId
    decreases |files|
  {
    if |files| == 0 then (db, Ok([]))
    else if !Supported(files[0]) then StoreFiles(db, sessionId, files[1..], ids, storage)
    else
      var f := files[0];
      var key := FileKey(sessionId, ids[0], Extension(f.originalName));
      match storage(key)
      case Err(e) => (db, Err(e))
      case Ok(url) =>
        var (db1, row) := InsertPhoto(db, NewPhotoRow(sessionId, f, key, url));
        var rest := StoreFiles(db1, sessionId, files[1..], ids[1..], storage);
        match rest.1
        case Err(e) => (rest.0, Err(e))
        case Ok(photos) => (rest.0, Ok([UploadedPhoto(row.id, row.fileName, row.fileUrl)] + photos))
  }

  /**
   * `after` extends `before` with rows of this session only: earlier rows are
   * untouched and every new row is unselected, has no format yet and has an
   * id from the auto-increment range used.
   */
  ghost predicate AddsSessionRows(before: Db, after: Db, sessionId: string) {
    && before.nextPhotoId <= after.nextPhotoId
    && (forall k :: k in before.photos ==> k in after.photos && after.photos[k] == before.photos[k])
    && (forall k :: k in after.photos && k !in before.photos ==>
          && before.nextPhotoId <= k < after.nextPhotoId
          && after.photos[k].selected == 0 && after.photos[k].sessionId == sessionId
          && after.photos[k].format.None?)
  }

  lemma AddsSessionRowsTrans(a: Db, b: Db, c: Db, sessionId: string)
    requires AddsSessionRows(a, b, sessionId) && AddsSessionRows(b, c, sessionId)
    ensures AddsSessionRows(a, c, sessionId)
  {
  }

  /** The upload loop only adds rows, all unselected and of the request's session. */
  lemma {:induction false} StoreFilesAddsRows(db: Db, sessionId: string, files: seq<UploadedFile>, ids: seq<string>,
                                              storage: string -> Result<string, string>)
    requires CountSupported(files) <= |ids|
    requires WellKeyed(db)
    ensures AddsSessionRows(db, StoreFiles(db, sessionId, files, ids, storage).0, sessionId)
    ensures WellKeyed(StoreFiles(db, sessionId, files, ids, storage).0)
    decreases |files|
  {
    if |files| > 0 {
      if !Supported(files[0]) {
        StoreFilesAddsRows(db, sessionId, files[1..], ids, storage);
      } else {
        var key := FileKey(sessionId, ids[0], Extension(files[0].originalName));
        if storage(key).Ok? {
          var (db1, row) := InsertPhoto(db, NewPhotoRow(sessionId, files[0], key, storage(key).value));
          assert AddsSessionRows(db, db1, sessionId);
          StoreFilesAddsRows(db1, sessionId, files[1..], ids[1..], storage);
          AddsSessionRowsTrans(db, db1, StoreFiles(db1, sessionId, files[1..], ids[1..], storage).0, sessionId);
        }
      }
    }
  }

  /** Rows below the auto-increment counter are never overwritten by the loop. */
  lemma {:induction false} StoreFilesKeepsEarlierRows(db: Db, sessionId: string, files: seq<UploadedFile>, ids: seq<string>,
                                                      storage: string -> Result<string, string>, k: nat)
    requires CountSupported(files) <= |ids|
    requires k in db.photos && k < db.nextPhotoId
    ensures k in StoreFiles(db, sessionId, files, ids, storage).0.photos
    ensures StoreFiles(db, sessionId, files, ids, storage).0.photos[k] == db.photos[k]
    decreases |files|
  {
    if |files| > 0 {
      if !Supported(files[0]) {
        StoreFilesKeepsEarlierRows(db, sessionId, files[1..], ids, storage, k);
      } else {
        var key := FileKey(sessionId, ids[0], Extension(files[0].originalName));
        if storage(key).Ok? {
          var (db1, row) := InsertPhoto(db, NewPhotoRow(sessionId, files[0], key, storage(key).value));
          StoreFilesKeepsEarlierRows(db1, sessionId, files[1..], ids[1..], storage, k);
        }
      }
    }
  }

  /**
   * The k-th supported file was put to storage under the key built from the
   * k-th fresh id and its own extension, its row sits at the k-th
   * auto-increment id from `firstId` with its name, MIME type and the URL
   * storage gave back, and the k-th echoed photo carries that id, name and URL.
   */
  ghost predicate StoredAt(firstId: nat, after: Db, sessionId: string, sf: seq<UploadedFile>, ids: seq<string>,
                           storage: string -> Result<string, string>, photos: seq<UploadedPhoto>, k: nat)
    requires k < |sf| && |photos| == |sf| <= |ids|
  {
    var key := FileKey(sessionId, ids[k], Extension(sf[k].originalName));
    && storage(key).Ok?
    && firstId + k in after.photos
    && after.photos[firstId + k] == NewPhotoRow(sessionId, sf[k], key, storage(key).value).(id := firstId + k)
    && photos[k] == UploadedPhoto(firstId + k, sf[k].originalName, storage(key).value)
  }

  /** Every supported file is stored and echoed as `StoredAt` says, one row and one photo per file. */
  ghost predicate StoredInOrder(firstId: nat, after: Db, sessionId: string, sf: seq<UploadedFile>, ids: seq<string>,
                                storage: string -> Result<string, string>, photos: seq<UploadedPhoto>)
  {
    && |photos| == |sf| <= |ids|
    && forall k: nat :: k < |sf| ==> StoredAt(firstId, after, sessionId, sf, ids, storage, photos, k)
  }

  /** When the loop succeeds, every supported file has its own row and echoed photo, in request order. */
  lemma {:induction false} StoreFilesContents(db: Db, sessionId: string, files: seq<UploadedFile>, ids: seq<string>,
                                              storage: string -> Result<string, string>)
    requires CountSupported(files) <= |ids|
    ensures var r := StoreFiles(db, sessionId, files, ids, storage);
      r.1.Ok? ==> StoredInOrder(db.nextPhotoId, r.0, sessionId, SupportedFiles(files), ids, storage, r.1.value)
    decreases |files|
  {
    if |files| > 0 {
      if !Supported(files[0]) {
        StoreFilesContents(db, sessionId, files[1..], ids, storage);
      } else {
        var f := files[0];
        var key := FileKey(sessionId, ids[0], Extension(f.originalName));
        if storage(key).Ok? {
          var n := db.nextPhotoId;
          var db1 := InsertPhoto(db, NewPhotoRow(sessionId, f, key, storage(key).value)).0;
          StoreFilesStep(db, sessionId, files, ids, storage);
          var rest := StoreFiles(db1, sessionId, files[1..], ids[1..], storage);
          if rest.1.Ok? {
            StoreFilesContents(db1, sessionId, files[1..], ids[1..], storage);
            StoreFilesKeepsEarlierRows(db1, sessionId, files[1..], ids[1..], storage, n);
            var r := StoreFiles(db, sessionId, files, ids, storage);
            assert SupportedFiles(files) == [f] + SupportedFiles(files[1..]);
            StoredInOrderCons(n, db1.nextPhotoId, rest.0, r.0, sessionId, f, SupportedFiles(files[1..]), SupportedFiles(files),
                              ids[1..], ids, storage, rest.1.value, r.1.value);
          }
        }
      }
    }
  }

  /** One turn of the loop on a supported file that storage accepts: its row is inserted, then the rest of the files follow. */
  lemma StoreFilesStep(db: Db, sessionId: string, files: seq<UploadedFile>, ids: seq<string>,
                       storage: string -> Result<string, string>)
    requires CountSupported(files) <= |ids|
    requires |files| > 0 && Supported(files[0])
    requires storage(FileKey(sessionId, ids[0], Extension(files[0].originalName))).Ok?
    ensures var key := FileKey(sessionId, ids[0], Extension(files[0].originalName));
      var url := storage(key).value;
      var db1 := InsertPhoto(db, NewPhotoRow(sessionId, files[0], key, url)).0;
      var rest := StoreFiles(db1, sessionId, files[1..], ids[1..], storage);
      && db1.nextPhotoId == db.nextPhotoId + 1
      && db.nextPhotoId in db1.photos
      && db1.photos[db.nextPhotoId] == NewPhotoRow(sessionId, files[0], key, url).(id := db.nextPhotoId)
      && StoreFiles(db, sessionId, files, ids, storage).0 == rest.0
      && (rest.1.Ok? ==>
            StoreFiles(db, sessionId, files, ids, storage).1 == Ok([UploadedPhoto(db.nextPhotoId, files[0].originalName, url)] + rest.1.value))
  {
  }

  /** Prepending the row written at `firstId` for the file `f` to a run stored from `firstId + 1`. */
  lemma StoredInOrderCons(firstId: nat, nextId: nat, after: Db, after': Db, sessionId: string, f: UploadedFile,
                          sf: seq<UploadedFile>, sf': seq<UploadedFile>, idsTail: seq<string>, ids: seq<string>,
                          storage: string -> Result<string, string>, photos: seq<UploadedPhoto>, photos': seq<UploadedPhoto>)
    requires StoredInOrder(nextId, after, sessionId, sf, idsTail, storage, photos)
    requires nextId == firstId + 1 && after' == after && |ids| > 0 && idsTail == ids[1..]
    requires var key := FileKey(sessionId, ids[0], Extension(f.originalName));
      && storage(key).Ok?
      && firstId in after.photos
      && after.photos[firstId] == NewPhotoRow(sessionId, f, key, storage(key).value).(id := firstId)
      && sf' == [f] + sf
      && photos' == [UploadedPhoto(firstId, f.originalName, storage(key).value)] + photos
    ensures StoredInOrder(firstId, after', sessionId, sf', ids, storage, photos')
  {
    forall k: nat | k < |sf'|
      ensures StoredAt(firstId, after, sessionId, sf', ids, storage, photos', k)
    {
      if k > 0 {
        assert StoredAt(firstId + 1, after, sessionId, sf, ids[1..], storage, photos, k - 1);
        assert sf'[k] == sf[k - 1] && ids[k] == ids[1..][k - 1] && photos'[k] == photos[k - 1];
        assert firstId + k == (firstId + 1) + (k - 1);
      }
    }
  }

  /**
   * `handlePhotoUpload`: an admission failure answers with its status; a
   * storage error answers 500; otherwise 200 with one entry per file of a
   * supported type, so a request of only unsupported files is a success
   * with none uploaded.
   */
  function HandleUpload(db: Db, sessionId: Option<string>, now: int, files: Option<seq<UploadedFile>>,
                        ids: seq<string>, storage: string -> Result<string, string>): (r: (Db, Response))
    requires files.Some? ==> CountSupported(files.value) <= |ids|
    ensures Admit(sessionId, db, now, files).Err? ==> r == (db, Admit(sessionId, db, now, files).error)
    ensures r.1.Accepted? ==> Admit(sessionId, db, now, files).Ok? && r.1.uploadedCount == CountSupported(files.value)
    ensures r.1.Accepted? ==> r.1.uploadedCount == |r.1.photos|
    ensures r.1.Accepted? ==>
      StoredInOrder(db.nextPhotoId, r.0, sessionId.value, SupportedFiles(files.value), ids, storage, r.1.photos)
    ensures r.0.sessions == db.sessions && r.0.orders == db.orders
    ensures Admit(sessionId, db, now, files).Ok? ==> !r.1.Rejected?
    ensures r.1.Failed? ==>
      && Admit(sessionId, db, now, files).Ok?
      && exists k: nat :: PutRefused(sessionId.value, SupportedFiles(files.value), ids, storage, k)
  {
    match Admit(sessionId, db, now, files)
    case Err(resp) => (db, resp)
    case Ok(fs) =>
      StoreFilesContents(db, sessionId.value, fs, ids, storage);
      StoreFilesFailure(db, sessionId.value, fs, ids, storage);
      var (db1, out) := StoreFiles(db, sessionId.value, fs, ids, storage);
      match out
      case Err(_) => (db1, Failed)
      case Ok(photos) => (db1, Accepted(|photos|, photos))
  }

  /** The key stored for the k-th accepted photo keeps its original file's extension. */
  lemma StoredKeyKeepsExtension(db: Db, sessionId: Option<string>, now: int, files: Option<seq<UploadedFile>>,
                                ids: seq<string>, storage: string -> Result<string, string>, k: nat)
    requires files.Some? ==> CountSupported(files.value) <= |ids|
    requires HandleUpload(db, sessionId, now, files, ids, storage).1.Accepted?
    requires k < |HandleUpload(db, sessionId, now, files, ids, storage).1.photos|
    requires '/' !in ids[k] && '.' !in ids[k] && '/' !in Extension(SupportedFiles(files.value)[k].originalName)
    ensures var r := HandleUpload(db, sessionId, now, files, ids, storage);
      && db.nextPhotoId + k in r.0.photos
      && Extension(r.0.photos[db.nextPhotoId + k].fileKey) == Extension(SupportedFiles(files.value)[k].originalName)
  {
    StoredRowKeepsExtension(db.nextPhotoId, HandleUpload(db, sessionId, now, files, ids, storage).0, sessionId.value,
      SupportedFiles(files.value), ids, storage, HandleUpload(db, sessionId, now, files, ids, storage).1.photos, k);
  }

  lemma StoredRowKeepsExtension(firstId: nat, after: Db, sessionId: string, sf: seq<UploadedFile>, ids: seq<string>,
                                storage: string -> Result<string, string>, photos: seq<UploadedPhoto>, k: nat)
    requires StoredInOrder(firstId, after, sessionId, sf, ids, storage, photos)
    requires k < |sf|
    requires '/' !in ids[k] && '.' !in ids[k] && '/' !in Extension(sf[k].originalName)
    ensures firstId + k in after.photos
    ensures Extension(after.photos[firstId + k].fileKey) == Extension(sf[k].originalName)
  {
    assert StoredAt(firstId, after, sessionId, sf, ids, storage, photos, k);
    FileKeyKeepsExtension(sessionId, ids[k], sf[k].originalName);
  }

  /** With storage that always succeeds, an admitted request is answered 200 with every supported file. */
  lemma AdmittedUploadSucceeds(db: Db, sessionId: Option<string>, now: int, files: Option<seq<UploadedFile>>,
                               ids: seq<string>, storage: string -> Result<string, string>)
    requires Admit(sessionId, db, now, files).Ok?
    requires CountSupported(files.value) <= |ids|
    requires forall key :: storage(key).Ok?
    ensures HandleUpload(db, sessionId, now, files, ids, storage).1 .Accepted?
    ensures HandleUpload(db, sessionId, now, files, ids, storage).1 .uploadedCount == CountSupported(files.value)
  {
    StoreNeverFails(db, sessionId.value, files.value, ids, storage);
  }

  /** Storage refused the put of the k-th supported file under its key. */
  predicate PutRefused(sessionId: string, sf: seq<UploadedFile>, ids: seq<string>,
                       storage: string -> Result<string, string>, k: nat) {
    k < |sf| && k < |ids| && storage(FileKey(sessionId, ids[k], Extension(sf[k].originalName))).Err?
  }

  /** The loop fails only when storage refused the put of one of the supported files. */
  lemma {:induction false} StoreFilesFailure(db: Db, sessionId: string, files: seq<UploadedFile>, ids: seq<string>,
                                             storage: string -> Result<string, string>)
    requires CountSupported(files) <= |ids|
    ensures StoreFiles(db, sessionId, files, ids, storage).1.Err? ==>
      exists k: nat :: PutRefused(sessionId, SupportedFiles(files), ids, storage, k)
    decreases |files|
  {
    if |files| > 0 && StoreFiles(db, sessionId, files, ids, storage).1.Err? {
      if !Supported(files[0]) {
        StoreFilesFailure(db, sessionId, files[1..], ids, storage);
        var k: nat :| PutRefused(sessionId, SupportedFiles(files[1..]), ids, storage, k);
        RefusedPastUnsupported(sessionId, files, ids, storage, k);
      } else {
        var key := FileKey(sessionId, ids[0], Extension(files[0].originalName));
        if storage(key).Err? {
          RefusedFirst(sessionId, files, ids, storage);
        } else {
          var (db1, row) := InsertPhoto(db, NewPhotoRow(sessionId, files[0], key, storage(key).value));
          StoreFilesFailure(db1, sessionId, files[1..], ids[1..], storage);
          var k: nat :| PutRefused(sessionId, SupportedFiles(files[1..]), ids[1..], storage, k);
          RefusedPastSupported(sessionId, files, ids, storage, k);
        }
      }
    }
  }

  lemma RefusedPastUnsupported(sessionId: string, files: seq<UploadedFile>, ids: seq<string>,
                               storage: string -> Result<string, string>, k: nat)
    requires |files| > 0 && !Supported(files[0])
    requires PutRefused(sessionId, SupportedFiles(files[1..]), ids, storage, k)
    ensures PutRefused(sessionId, SupportedFiles(files), ids, storage, k)
  {
    assert SupportedFiles(files) == SupportedFiles(files[1..]);
  }

  lemma RefusedFirst(sessionId: string, files: seq<UploadedFile>, ids: seq<string>,
                     storage: string -> Result<string, string>)
    requires |files| > 0 && Supported(files[0]) && |ids| > 0
    requires storage(FileKey(sessionId, ids[0], Extension(files[0].originalName))).Err?
    ensures PutRefused(sessionId, SupportedFiles(files), ids, storage, 0)
  {
    assert SupportedFiles(files)[0] == files[0];
  }

  lemma RefusedPastSupported(sessionId: string, files: seq<UploadedFile>, ids: seq<string>,
                             storage: string -> Result<string, string>, k: nat)
    requires |files| > 0 && Supported(files[0]) && |ids| > 0
    requires PutRefused(sessionId, SupportedFiles(files[1..]), ids[1..], storage, k)
    ensures PutRefused(sessionId, SupportedFiles(files), ids, storage, k + 1)
  {
    var sf := SupportedFiles(files);
    assert sf == [files[0]] + SupportedFiles(files[1..]);
    assert sf[k + 1] == SupportedFiles(files[1..])[k];
    assert ids[k + 1] == ids[1..][k];
  }

  lemma {:induction false} StoreNeverFails(db: Db, sessionId: string, files: seq<UploadedFile>, ids: seq<string>,
                                           storage: string -> Result<string, string>)
    requires CountSupported(files) <= |ids|
    requires forall key :: storage(key).Ok?
    ensures StoreFiles(db, sessionId, files, ids, storage).1.Ok?
    decreases |files|
  {
    if |files| > 0 {
      if !Supported(files[0]) {
        StoreNeverFails(db, sessionId, files[1..], ids, storage);
      } else {
        var key := FileKey(sessionId, ids[0], Extension(files[0].originalName));
        var (db1, row) := InsertPhoto(db, NewPhotoRow(sessionId, files[0], key, storage(key).value));
        StoreNeverFails(db1, sessionId, files[1..], ids[1..], storage);
      }
    }
  }

  /** An admitted request whose files all have unsupported types is answered 200 with nothing uploaded and the database unchanged. */
  lemma UnsupportedOnlyAnswersEmpty(db: Db, sessionId: Option<string>, now: int, files: Option<seq<UploadedFile>>,
                                    ids: seq<string>, storage: string -> Result<string, string>)
    requires Admit(sessionId, db, now, files).Ok?
    requires forall k :: 0 <= k < |files.value| ==> !Supported(files.value[k])
    ensures HandleUpload(db, sessionId, now, files, ids, storage) == (db, Accepted(0, []))
  {
    UnsupportedOnlyUploadsNothing(db, sessionId.value, files.value, ids, storage);
  }

  /** A request made only of unsupported files is admitted and answered 200 with nothing uploaded and the database unchanged. */
  lemma {:induction false} UnsupportedOnlyUploadsNothing(db: Db, sessionId: string, files: seq<UploadedFile>, ids: seq<string>,
                                                         storage: string -> Result<string, string>)
    requires forall k :: 0 <= k < |files| ==> !Supported(files[k])
    ensures CountSupported(files) == 0
    ensures StoreFiles(db, sessionId, files, ids, storage) == (db, Ok([]))
    decreases |files|
  {
    if |files| > 0 {
      UnsupportedOnlyUploadsNothing(db, sessionId, files[1..], ids, storage);
    }
  }
}
